=== FILE: README.md ===
# Stuck-appliance reset agent — Dafny model

The agent runs once. It reads the state of one smart litter-box appliance. It decides
whether the appliance is stuck in the "Clean_Pause" state, and if so it power-cycles
the appliance and starts a manual clean. There are two versions:

- `main.go` talks to the vendor's cloud API. It reads the device status and the last
  ten minutes of event logs.
- `main.py` talks to the device over the local protocol. It reads the data points
  (`dps`) of the status.

This project models the decision and sequencing logic of both versions as pure
functions and small methods over immutable data:

- `results.dfy` — `Option`, `Result`, and `PyOutcome` (a Python return value or a raised exception).
- `telemetry.dfy` — `Value`, the decoded JSON value with its dynamic type explicit
  (`Bool | Num | Str | Map | List | Null`), and type-checked field extraction.
- `text.dfy` — Go's `strings.TrimSpace` and Python's `str.strip()`, each with its own
  whitespace set; first-occurrence search; decimal digits.
- `classifier.dfy` — Go's `needsReset` and Python's `needs_reset`.
- `sequencer.dfy` — the OFF / 1 s / ON / 2 s / CLEAN reset sequence. It is a loop over a
  step table and an abstract send-outcome oracle. It returns a trace of `Send`/`Sleep`
  events and a result tagged OFF, ON or CLEAN. Go stops at any failed send. Python
  stops only when `set_value` raises.
- `history.dfy` — the query window, the reply checks and the five-entry truncation of
  `getLastDeviceLogs`.
- `envfile.dfy` — `.env` line parsing (`loadEnvFile`, `load_env`) over an explicit
  environment map.
- `config.dfy` — `loadConfig` validation and the configuration checks of Python's `main`.
- `delay.dfy` — Python's `SHUTDOWN_DELAY` suffix parsing, with Python's `int()`.
- `status_format.dfy` — Python's `format_status` key renaming.
- `agent.dfy` — one run of each `main`. Status is required. History is best-effort (Go).
  Then come the decision, the reset when needed, and the sleep before exit.

The network is replaced by oracles. A status or history reply is a value. A command
send is `respond(k)`, the outcome of the k-th send. Sleeps are trace events in
nanoseconds, the unit of Go's `time.Duration`. The clock is a parameter `now`. The
process environment is a `map<string, string>`. Fatal exits are result values.

Three behaviours of the runtime libraries are modelled because they change results:

- Whitespace. Python's `str.strip()` also removes U+001C..U+001F; Go's
  `strings.TrimSpace` does not. `EnvFile.LoadEnvVersionsAgree` shows that the two loaders
  agree on the same sequence of lines when no line holds those characters.
- Refused variables. An assignment with an empty name, or with NUL in the name or
  value, is refused by the environment. Go's `os.Setenv` returns an error that
  `loadEnvFile` ignores, so nothing changes. Python raises, and `load_env` does not
  catch it: a NUL gives `ValueError`, and an empty name reaches POSIX `setenv`, whose
  `EINVAL` CPython raises as `OSError`.
- Integer whitespace. Python's `int()` skips only the whitespace Go's `unicode.IsSpace`
  knows. CPython maps non-ASCII whitespace to a space and then skips ASCII whitespace,
  so U+001C..U+001F, which `str.strip()` removes, make `int()` fail
  (`Delay.SeparatorIsNotIntWhitespace`).

The two classifiers disagree on a device that reports nothing. Go resets it: a
missing `online` counts as offline. Python does not: no `dps` means no reset. Both
behaviours are modelled as written (`Classifier.VersionsDisagreeOnNoData`).

## Model

| member | source | states |
|---|---|---|
| Classifier.ScanForCleanPause | main.go:187-195 | The in-order scan finds a match iff some log entry is a map whose `value` is the string "Clean_Pause" |
| Classifier.NeedsResetGo | main.go:181-196 | With `online` missing, not a bool, or false: reset, whatever the logs hold. With `online` true: reset iff some entry is a map whose `value` is the string "Clean_Pause" |
| Classifier.OnlineWithoutHistoryNoReset | main.go:187-195 | With `online` true and an empty (or nil) log list, no reset |
| Classifier.NeedsResetGoOrderFree | main.go:187-195 | Where the Clean_Pause entry sits does not matter: swapping two halves of the log list gives the same decision |
| Classifier.IgnoredEntriesChangeNothing | main.go:188-189 | Adding entries that are not maps, or whose `value` is not the string "Clean_Pause", at either end never changes the decision |
| Classifier.NeedsResetPy | main.py:74-80 | An empty status or one without `dps` gives false. A `dps` that is not a dict raises `AttributeError` from `.get`. Otherwise the result is true iff data point "110" is the string "Clean_Pause" |
| Classifier.OnlyOperationDpMatters | main.py:78-80 | Changing any data point other than "110" does not change Python's decision |
| Classifier.VersionsDisagreeOnNoData | main.go:182-185 | For every status with neither `online` nor `dps` and any logs, Go resets while Python's `needs_reset` (main.py:75-76) returns false |
| Sequencer.RunSequence | main.go:198-294 | Sends run in table order up to the first aborting outcome. Nothing is sent or slept after it. The result is tagged with that step and carries its outcome. With no abort, the full trace is produced and the result is success |
| Sequencer.ControlDeviceGo | main.go:198-294 | With all three sends accepted the trace is switch off, 1 s, switch on, 2 s, manual_clean on and the result is success, and otherwise the first send that fails in transport or with `success == false` ends the trace and tags the error OFF, ON or CLEAN |
| Sequencer.ControlDevicePy | main.py:82-88 | Unless `set_value` raises the trace is dp 1 off, 1 s, dp 1 on, 2 s, dp 9 on whatever payloads come back, and otherwise the first raising send ends the trace and tags the failure OFF, ON or CLEAN |
| History.LogQueryAt | main.go:150-158 | The request covers exactly [now − 600000 ms, now] for data points "1,2,3,4,5,6,7,8,9" of the device |
| History.Truncate | main.go:170-176 | Keeps a prefix of the list in source order, of length min(len, limit) |
| History.TruncateIdempotent | main.go:170-176 | Truncating an already truncated list changes nothing |
| History.TruncateSplits | main.go:170-176 | The kept entries followed by the dropped entries are the original list; a list within the limit is kept whole |
| History.ShapeLogs | main.go:162-178 | A failed request or `success == false` is an error. So is a `logs` field that is missing, not a list, or empty ("no logs found"), and then no list is returned. Otherwise the result is the first min(len, 5) entries, non-empty, in source order |
| History.GetLastDeviceLogs | main.go:149-179 | The reply comes from the query for [now − 600000, now], and at most five entries come back |
| Text.Trim | main.go:82 | `strings.TrimSpace`: the result is an infix of the input with no whitespace at either end, and only whitespace was cut |
| Text.TrimAgrees | main.py:68 | `str.strip()` and `strings.TrimSpace` give the same result on strings without U+001C..U+001F |
| Text.IndexOf | main.go:86 | The first `=` is found: it is at the returned index and not before it; none is returned iff there is no `=` |
| EnvFile.ParseEnvLine | main.go:82-91 | After trimming: blank lines and `#` lines are skipped, and lines without `=` assign nothing. Otherwise the line splits at its first `=` into a trimmed key and a trimmed value |
| EnvFile.ParseFormattedLine | main.go:86-89 | A `KEY=VALUE` line built from a well-formed key and a trimmed value reads back as exactly that assignment |
| EnvFile.ApplyLineGo | main.go:86-91 | Every variable the line does not assign keeps its lookup; the assigned variable reads the parsed value when the environment accepts it and is unchanged otherwise |
| EnvFile.ApplyFormattedLineGo | main.go:86-91 | A well-formed `KEY=VALUE` line sets exactly that variable to exactly that value |
| EnvFile.LoadEnvGo | main.go:81-92 | Loading the lines in order never unsets a variable |
| EnvFile.UnassignedKeyUnchanged | main.go:81-92 | A variable that no line of the file assigns keeps its previous value, or stays unset |
| EnvFile.LastAssignmentWins | main.go:81-92 | A final well-formed `KEY=VALUE` line decides the variable, whatever the earlier lines and the earlier environment held |
| EnvFile.EnvRefusal | main.py:72 | `os.environ[k] = v` raises iff the environment refuses the pair: `OSError` exactly for an empty name with a NUL-free value, `ValueError` otherwise |
| EnvFile.ApplyLinePy | main.py:69-72 | The line raises iff it is a refused assignment (`OSError` for an empty name with a NUL-free value, else `ValueError`); otherwise the assigned variable reads the parsed value and every other variable keeps its lookup |
| EnvFile.LoadEnvPy | main.py:67-72 | When `load_env` completes, no variable it started with is unset |
| EnvFile.LoadEnvPyRaisesOnlyOnRefusal | main.py:66-72 | `load_env` completes whenever no line is an assignment the environment refuses |
| EnvFile.LoadEnvPyRaisesOnRefusal | main.py:69-72 | `load_env` raises as soon as any line is an assignment the environment refuses |
| EnvFile.ParseAgrees | main.py:68-72 | Python and Go read a line without U+001C..U+001F the same way |
| EnvFile.ApplyLineAgrees | main.py:69-72 | A line without U+001C..U+001F that Python does not refuse changes the environment as Go's `loadEnvFile` does |
| EnvFile.LoadEnvVersionsAgree | main.py:66-72 | On the same sequence of lines, with no U+001C..U+001F and no refused assignments, `load_env` leaves the same environment as Go's `loadEnvFile` |
| Config.LoadConfigGo | main.go:96-128 | Fails iff AccessID, AccessKey or DeviceID is empty (MissingRequired), else the region is outside {eu, us, cn, in} (InvalidRegion), else a non-empty SHUTDOWN_DELAY does not parse (InvalidShutdownDelay); on success an empty region becomes "eu", the region has endpoints, Debug is "true" equality, and the delay is 0 when unset |
| Config.LoadConfigPy | main.py:99-113 | Fails iff DEVICE_IP, DEVICE_ID or LOCAL_KEY is unset or empty (MissingDeviceSettings), else PROTOCOL_VERSION (default "3.3") is not a float (InvalidProtocolVersion with that text); on success the three settings are kept, the version is `float()` of that text, and the delay text is SHUTDOWN_DELAY or "0" |
| Delay.PyInt | main.py:155-159 | A text `int()` accepts is, after stripping its whitespace, non-blank, a leading sign or digit followed only by digits and underscores, and ends in a digit; so any other character (as in "5x") is rejected. A negative value starts with a minus sign |
| Delay.PyIntOfDecimal | main.py:155-159 | `int()` reads the decimal text of n as n |
| Delay.PyIntOfNegativeDecimal | main.py:155-159 | `int()` reads "-" followed by the decimal text of n as −n |
| Delay.DelayAmount | main.py:154-159 | An "m" value that `int()` accepts is a whole number of minutes, in seconds |
| Delay.AmountOfMinutes | main.py:154-155 | An "m" value is `int()` of the text before the "m", times 60, or the `ValueError` when `int()` rejects that text |
| Delay.AmountOfSeconds | main.py:156-157 | An "s" value is `int()` of the text before the "s" |
| Delay.AmountOfBare | main.py:158-159 | A value with neither unit is `int()` of the whole text |
| Delay.ShutdownDelaySeconds | main.py:151-164 | "" and "0" never sleep; otherwise the run sleeps exactly when the computed amount exists and is positive, and then for that amount |
| Delay.RejectedDelayNeverSleeps | main.py:163-164 | A value `int()` rejects means no sleep |
| Delay.SeparatorIsNotIntWhitespace | main.py:155 | `int()` rejects "5" followed by U+001C |
| Delay.SeparatorDelayNeverSleeps | main.py:154-164 | "5\x1cm" means no sleep |
| Delay.ShutdownDelayMinutes | main.py:154-155 | "<n>m" with n > 0 sleeps n·60 seconds |
| Delay.ShutdownDelaySecondsSuffix | main.py:156-157 | "<n>s" with n > 0 sleeps n seconds |
| Delay.ShutdownDelayBare | main.py:158-159 | "<n>" with n > 0 sleeps n seconds |
| Delay.NegativeMinutesNeverSleep | main.py:154-164 | "-<n>m" means no sleep |
| Delay.NegativeSecondsNeverSleep | main.py:156-164 | "-<n>s" means no sleep |
| Delay.NegativeBareNeverSleeps | main.py:158-164 | "-<n>" means no sleep |
| StatusFormat.MappedNamesAreNotFallbacks | main.py:19-38 | No readable name in DPS_MAPPING starts with "dps_" |
| StatusFormat.FieldNameInjective | main.py:53 | Distinct data points get distinct field names, so no formatted value overwrites another |
| StatusFormat.RenameDataPoints | main.py:52-57 | Every data point is kept under DPS_MAPPING[key] or "dps_" + key with its formatted value; nothing else appears; the count is unchanged |
| StatusFormat.FormatStatus | main.py:45-57 | `{}` when the status is empty or has no `dps`. Raises when `dps` is not a dict. Otherwise every data point is kept under its name, with the same count |
| Agent.GetDeviceStatus | main.go:130-147 | The status is returned iff the request succeeded with `success == true`, and it is that reply's `Result`; a transport error gives the request-failed error with its cause, and `success == false` gives the API-failure error with the reply's `msg` |
| Agent.GoDecision | main.go:365-387 | A device not reported online is reset; an online one is reset iff the history request for the last ten minutes delivered a non-empty `logs` list whose first five entries hold a Clean_Pause entry |
| Agent.OnlyFirstFiveLogsCount | main.go:170-176 | With `online` true and any successful reply whose `logs` has more than five entries, a Clean_Pause entry past the fifth causes no reset |
| Agent.RunGo | main.go:320-402 | Config and status failures are fatal before any send; with no reset the run sleeps only; with a reset the run is repaired iff all three sends are accepted, with the five-event trace and then the sleep, and otherwise it is fatal at the first failed send, tagged with that step and with the trace ending at that send |
| Agent.RunPy | main.py:97-98 | An exception from `load_env` ends the run as that crash with nothing sent; otherwise the run is the one `PyRunAfterLoad` describes for the loaded environment |
| Agent.RunPyLoaded | main.py:99-164 | A config failure, no response, an `Error` status and a non-dict `dps` end the run before any send as their own outcomes; otherwise the formatted dps are reported with the healthy message and no sends, or, for a Clean_Pause status, with the reset message and the five-event trace unless `set_value` raises, and a raise is fatal at that step with the trace ending at its send |

## Left out

- Network calls (`connector.MakeGetRequest`/`MakePostRequest`, `tinytuya.Device`) are oracles, not models. Request signing, endpoints, URI formatting and JSON decoding are outside the model. A reply that fails to decode counts as a transport failure.
- Real sleeping and the wall clock are left out. Sleeps are trace events, and `now` is a parameter.
- `time.ParseDuration` is an opaque parameter of `Config.LoadConfigGo`. Its grammar is a Go library concern.
- Python's `float()` for PROTOCOL_VERSION is an opaque parameter, for the same reason.
- `format_dps_value` is an opaque parameter of `StatusFormat.FormatStatus`. It does float division and `.1f` formatting.
- File access is left out: opening the `.env` file, choosing it next to the executable, splitting it into lines, and the `bufio.Scanner` 64 KiB line limit. The model takes the file as a sequence of lines. The environment is a map, not the process environment.
- The version subcommand, logger setup, debug output, and the Amsterdam-time annotation of log entries are left out. Apart from the panic named under `Agent.RunGo` below, the annotation only adds a display field.
- Printing the Python output JSON is left out. The printed value is modelled as `PyOutput`.
- Python's `int()` is modelled for ASCII digits only. Its acceptance of other Unicode decimal digits and its 4300-digit limit are left out.
- `Value.Num` is a mathematical real, not float64. No decision reads a number.
- Agent.RunGo: takes the environment after `loadEnvFile` (`EnvFile.LoadEnvGo` computes it). Loading cannot end a Go run: the errors of `os.Setenv` are ignored and a failure to read the file is only logged (main.go:302-318). With `DEBUG` on, the model also leaves out a panic in the log annotation. If `time.LoadLocation("Europe/Amsterdam")` fails, for example on a host without a time-zone database, its error is discarded and the location is nil. If a log entry then carries a numeric `event_time`, `.In(nil)` panics (main.go:373-377). The run then ends before `needsReset` (main.go:387), with no decision and nothing sent.
- EnvFile.LoadEnvVersionsAgree: is stated over one shared sequence of lines, not over a file. The two programs split and decode the same file differently. Python's text mode uses universal newlines, so `\r` and `\r\n` also end a line. Go's `bufio.ScanLines` splits only at `\n` and drops one trailing `\r`. Python also raises `UnicodeDecodeError` on invalid UTF-8, where Go reads the bytes as they are.
- Agent.RunPy: a delay above 9223372036 seconds makes CPython's `time.sleep` raise `OverflowError`, which `main` does not catch; the model sleeps for any positive amount. Such a delay is far beyond any shutdown wait.
- History.LogQueryAt: computes `now - 600000` on unbounded integers. Go's int64 would wrap only for clock readings within ten minutes of the smallest int64, which a real clock never returns.
- Strings are sequences of Unicode scalar values. Go's handling of invalid UTF-8 in `TrimSpace` is left out.

=== FILE: agent.dfy ===
/**
  One run of each agent: configuration, status (required), history (Go only,
  best-effort), the decision, the reset sequence when needed, and the optional
  sleep before exit. The network is a set of oracles; the trace records every send
  and sleep in order. A fatal outcome stands for `log.Fatalf` / `sys.exit(1)`.
*/
module Agent {
  import opened Results
  import opened Telemetry
  import opened Classifier
  import opened Sequencer
  import opened History
  import opened Config
  import opened Delay
  import opened StatusFormat
  import opened EnvFile

  /** The trace holds no command at all. */
  predicate NoSends(trace: seq<Event>) {
    forall i :: 0 <= i < |trace| ==> !trace[i].Send?
  }

  /** Go's trailing `time.Sleep(cfg.ShutdownDelay)`, taken only for a positive duration. */
  function TrailingSleep(delay: int): (events: seq<Event>)
  {
    if delay > 0 then [Sleep(delay)] else []
  }

  // ---------------------------------------------------------------------------
  // Go: main
  // ---------------------------------------------------------------------------

  datatype StatusError = StatusRequestFailed(err: string) | StatusApiFailure(msg: string)

  /** Go's `getDeviceStatus`: the reply's `Result` when the request succeeded with `success == true`. */
  function GetDeviceStatus(reply: ApiReply): (r: Result<map<string, Value>, StatusError>)
    ensures r.Success? <==> reply.Replied? && reply.success
    ensures r.Success? ==> r.value == reply.result
    ensures reply.TransportFailed? ==> r == Failure(StatusRequestFailed(reply.err))
    ensures reply.Replied? && !reply.success ==> r == Failure(StatusApiFailure(reply.msg))
  {
    match reply
    case TransportFailed(err) => Failure(StatusRequestFailed(err))
    case Replied(success, msg, result) =>
      if success then Success(result) else Failure(StatusApiFailure(msg))
  }

  /** How a Go run ends. */
  datatype GoRun =
    | ConfigFatal(configError: ConfigError)
    | StatusFatal(statusError: StatusError)
    | ControlFatal(step: StepTag, cause: SendOutcome)
    | Healthy
    | Repaired

  /**
    The decision Go's `main` takes. A device not reported online is reset. An online
    device is reset iff the history request delivered logs and one of the first five
    entries is a Clean_Pause entry; a history that could not be fetched counts as none.
  */
  function GoDecision(result: map<string, Value>, deviceId: string, now: int, fetchLogs: LogQuery -> ApiReply)
    : (reset: bool)
    ensures !ReportsOnline(result) ==> reset
    ensures var reply := fetchLogs(LogQueryAt(deviceId, now));
            ReportsOnline(result) ==>
              (reset <==>
                 && DeliversLogs(reply)
                 && var items := reply.result["logs"].items;
                    HasCleanPause(items[..if |items| < MaxLogs then |items| else MaxLogs]))
  {
    NeedsResetGo(result, LogsOrNone(GetLastDeviceLogs(deviceId, now, fetchLogs)))
  }

  /**
    Go's `main` after the `.env` file is loaded into `env`. A configuration or status
    failure ends the run before anything is sent; a history failure does not. When the
    decision is to reset, the reset sequence runs and the first failed send is fatal;
    the trailing sleep happens only when the run did not end fatally.
  */
  method RunGo(
    env: map<string, string>,
    parseDuration: string -> Option<int>,
    now: int,
    fetchStatus: string -> ApiReply,
    fetchLogs: LogQuery -> ApiReply,
    respond: nat -> SendOutcome)
    returns (trace: seq<Event>, run: GoRun)
    ensures LoadConfigGo(env, parseDuration).Failure? ==>
              run == ConfigFatal(LoadConfigGo(env, parseDuration).error) && trace == []
    ensures LoadConfigGo(env, parseDuration).Success? ==>
              var cfg := LoadConfigGo(env, parseDuration).value;
              var status := GetDeviceStatus(fetchStatus(cfg.deviceId));
              && (status.Failure? ==> run == StatusFatal(status.error) && trace == [])
              && (status.Success? && !GoDecision(status.value, cfg.deviceId, now, fetchLogs) ==>
                    run == Healthy && trace == TrailingSleep(cfg.shutdownDelay))
              && (status.Success? && GoDecision(status.value, cfg.deviceId, now, fetchLogs) ==>
                    && (run == Repaired <==> respond(0).Ok? && respond(1).Ok? && respond(2).Ok?)
                    && (run == Repaired ==> trace == GoResetTrace + TrailingSleep(cfg.shutdownDelay))
                    && (!respond(0).Ok? ==>
                          run == ControlFatal(Off, respond(0)) && trace == GoResetTrace[..1])
                    && (respond(0).Ok? && !respond(1).Ok? ==>
                          run == ControlFatal(On, respond(1)) && trace == GoResetTrace[..3])
                    && (respond(0).Ok? && respond(1).Ok? && !respond(2).Ok? ==>
                          run == ControlFatal(Clean, respond(2)) && trace == GoResetTrace))
    ensures run.ControlFatal? ==> |trace| > 0 && trace[|trace| - 1].Send?
    ensures run.Healthy? ==> NoSends(trace)
  {
    var loaded := LoadConfigGo(env, parseDuration);
    if loaded.Failure? {
      return [], ConfigFatal(loaded.error);
    }
    var cfg := loaded.value;
    var status := GetDeviceStatus(fetchStatus(cfg.deviceId));
    if status.Failure? {
      return [], StatusFatal(status.error);
    }
    var lastLogs := LogsOrNone(GetLastDeviceLogs(cfg.deviceId, now, fetchLogs));
    if NeedsResetGo(status.value, lastLogs) {
      var result;
      trace, result := ControlDeviceGo(respond);
      if result.Aborted? {
        return trace, ControlFatal(result.step, result.cause);
      }
      run := Repaired;
    } else {
      trace, run := [], Healthy;
    }
    trace := trace + TrailingSleep(cfg.shutdownDelay);
  }

  /**
    Go classifies only the entries that survive truncation: with the device online,
    a Clean_Pause entry beyond the first five the API returned does not cause a reset.
  */
  lemma OnlyFirstFiveLogsCount(
    result: map<string, Value>, deviceId: string, now: int, fetchLogs: LogQuery -> ApiReply, logs: seq<Value>)
    requires ReportsOnline(result)
    requires var reply := fetchLogs(LogQueryAt(deviceId, now));
             reply.Replied? && reply.success && "logs" in reply.result && reply.result["logs"] == List(logs)
    requires |logs| > MaxLogs
    requires forall i :: 0 <= i < MaxLogs ==> !IsCleanPauseEntry(logs[i])
    ensures !GoDecision(result, deviceId, now, fetchLogs)
  {
    var kept := logs[..MaxLogs];
    assert forall i :: 0 <= i < |kept| ==> kept[i] == logs[i];
    assert !HasCleanPause(kept);
  }

  // ---------------------------------------------------------------------------
  // Python: main
  // ---------------------------------------------------------------------------

  /** The message `control_device` returns. */
  const ResetMessage: string := "Device stuck in 'Clean_Pause' state, sending reset-clean commands consecutively."

  /** The message for a device that needs nothing. */
  const HealthyMessage: string := "Device is working properly, no action needed."

  /** The JSON document Python's `main` prints on success. */
  datatype PyOutput = PyOutput(dps: map<string, Value>, message: string)

  /** How a Python run ends; `PyCrashed` is an exception nothing catches. */
  datatype PyRun =
    | PyConfigFatal(configError: PyConfigError)
    | PyNoResponse
    | PyStatusError(detail: Value)
    | PyCrashed(exception: PyException)
    | PyControlFatal(step: StepTag, cause: SendOutcome)
    | PyReported(output: PyOutput)

  /** Python's trailing `time.sleep(delay_seconds)`, in nanoseconds. */
  function PyTrailingSleep(raw: string): (events: seq<Event>)
    ensures NoSends(events) && |events| <= 1
    ensures ShutdownDelaySeconds(raw).None? <==> events == []
  {
    match ShutdownDelaySeconds(raw)
    case Some(seconds) => [Sleep(seconds * Second)]
    case None => []
  }

  /** `format_status` raises: the status has a `dps` that is not a dict. */
  predicate MalformedDps(status: map<string, Value>) {
    "dps" in status && !status["dps"].Map?
  }

  /**
    What Python's `main` does once `load_env` has produced `env`. A configuration
    failure, no response (`None` or an empty status), an `Error` status and a `dps` that
    is not a dict each end the run before anything is sent. Otherwise the formatted dps
    are reported: with the healthy message and no sends, or, for a Clean_Pause status,
    with the reset message after the full reset sequence, unless `set_value` raises, in
    which case the run is fatal at that step and nothing follows its send. A report is
    followed by the trailing sleep.
  */
  predicate PyRunAfterLoad(
    env: map<string, string>,
    parseFloat: string -> Option<real>,
    fetchStatus: PyConfig -> Option<map<string, Value>>,
    formatValue: (string, Value) -> Value,
    respond: nat -> SendOutcome,
    trace: seq<Event>,
    run: PyRun)
  {
    && (LoadConfigPy(env, parseFloat).Failure? ==>
          run == PyConfigFatal(LoadConfigPy(env, parseFloat).error) && trace == [])
    && (LoadConfigPy(env, parseFloat).Success? ==>
          var cfg := LoadConfigPy(env, parseFloat).value;
          var fetched := fetchStatus(cfg);
          && (fetched.None? || fetched == Some(map[]) ==> run == PyNoResponse && trace == [])
          && (fetched.Some? && "Error" in fetched.value ==>
                run == PyStatusError(fetched.value["Error"]) && trace == [])
          && (fetched.Some? && fetched.value != map[] && "Error" !in fetched.value ==>
                var status := fetched.value;
                && (MalformedDps(status) ==> run == PyCrashed(AttributeError) && trace == [])
                && (!MalformedDps(status) && !ReportsCleanPause(status) ==>
                      run == PyReported(PyOutput(FormatStatus(status, formatValue).value, HealthyMessage))
                      && trace == PyTrailingSleep(cfg.shutdownDelay))
                && (!MalformedDps(status) && ReportsCleanPause(status) ==>
                      && (run.PyReported? <==>
                            !respond(0).TransportErr? && !respond(1).TransportErr? && !respond(2).TransportErr?)
                      && (run.PyReported? ==>
                            run == PyReported(PyOutput(FormatStatus(status, formatValue).value, ResetMessage))
                            && trace == PyResetTrace + PyTrailingSleep(cfg.shutdownDelay))
                      && (respond(0).TransportErr? ==>
                            run == PyControlFatal(Off, respond(0)) && trace == PyResetTrace[..1])
                      && (!respond(0).TransportErr? && respond(1).TransportErr? ==>
                            run == PyControlFatal(On, respond(1)) && trace == PyResetTrace[..3])
                      && (!respond(0).TransportErr? && !respond(1).TransportErr? && respond(2).TransportErr? ==>
                            run == PyControlFatal(Clean, respond(2)) && trace == PyResetTrace))))
  }

  /**
    Python's `main`. `load_env` reads the `.env` file's `lines` into `environ` (a missing
    file is no lines), and an exception it raises ends the run with nothing sent.
  */
  method RunPy(
    environ: map<string, string>,
    lines: seq<string>,
    parseFloat: string -> Option<real>,
    fetchStatus: PyConfig -> Option<map<string, Value>>,
    formatValue: (string, Value) -> Value,
    respond: nat -> SendOutcome)
    returns (trace: seq<Event>, run: PyRun)
    ensures LoadEnvPy(environ, lines).Raises? ==>
              run == PyCrashed(LoadEnvPy(environ, lines).exception) && trace == []
    ensures LoadEnvPy(environ, lines).Returns? ==>
              PyRunAfterLoad(LoadEnvPy(environ, lines).value, parseFloat, fetchStatus, formatValue, respond, trace, run)
  {
    var envLoaded := LoadEnvPy(environ, lines);
    if envLoaded.Raises? {
      return [], PyCrashed(envLoaded.exception);
    }
    trace, run := RunPyLoaded(envLoaded.value, parseFloat, fetchStatus, formatValue, respond);
  }

  /** The part of Python's `main` after `load_env`, from the configuration checks to the sleep. */
  method RunPyLoaded(
    env: map<string, string>,
    parseFloat: string -> Option<real>,
    fetchStatus: PyConfig -> Option<map<string, Value>>,
    formatValue: (string, Value) -> Value,
    respond: nat -> SendOutcome)
    returns (trace: seq<Event>, run: PyRun)
    ensures PyRunAfterLoad(env, parseFloat, fetchStatus, formatValue, respond, trace, run)
    ensures run.PyCrashed? || run.PyNoResponse? || run.PyStatusError? ==> trace == []
    ensures run.PyControlFatal? ==> run.cause.TransportErr?
  {
    var loaded := LoadConfigPy(env, parseFloat);
    if loaded.Failure? {
      return [], PyConfigFatal(loaded.error);
    }
    var cfg := loaded.value;
    var fetched := fetchStatus(cfg);
    if fetched.None? || |fetched.value| == 0 {
      return [], PyNoResponse;
    }
    var status := fetched.value;
    if "Error" in status {
      return [], PyStatusError(status["Error"]);
    }
    var formatted := FormatStatus(status, formatValue);
    if formatted.Raises? {
      return [], PyCrashed(formatted.exception);
    }
    // `needs_reset` fails exactly when `format_status` already did.
    var decision := NeedsResetPy(status);
    assert decision.Returns?;
    var message;
    if decision.value {
      var result;
      trace, result := ControlDevicePy(respond);
      if result.Aborted? {
        return trace, PyControlFatal(result.step, result.cause);
      }
      message := ResetMessage;
    } else {
      trace, message := [], HealthyMessage;
    }
    run := PyReported(PyOutput(formatted.value, message));
    trace := trace + PyTrailingSleep(cfg.shutdownDelay);
  }
}

=== FILE: classifier.dfy ===
/**
  The stuck-state classifier in its two versions.

  The Go agent (cloud API) resets when the device is not reported online or when
  any recent log entry carries the value "Clean_Pause". The Python agent (local
  protocol) looks only at data point "110" of the status it read. The two disagree
  when there is no data: Go resets, Python does not.
*/
module Classifier {
  import opened Results
  import opened Telemetry

  /** The operation state the appliance reports when it is stuck. */
  const CleanPause: string := "Clean_Pause"

  /** The data point holding the operation state in the local protocol. */
  const OperationDp: string := "110"

  // ---------------------------------------------------------------------------
  // Go: needsReset(deviceInfo, lastLogs)
  // ---------------------------------------------------------------------------

  /** `Result["online"].(bool)`: the online flag when present and boolean. */
  function OnlineFlag(result: map<string, Value>): Option<bool> {
    BoolField(result, "online")
  }

  /** The status reports `online` as the boolean `true`. */
  predicate ReportsOnline(result: map<string, Value>) {
    "online" in result && result["online"] == Bool(true)
  }

  /** A log entry that is a map whose `value` is the string "Clean_Pause". */
  predicate IsCleanPauseEntry(entry: Value) {
    entry.Map? && StrField(entry.fields, "value") == Some(CleanPause)
  }

  /** Some entry of `logs` is a Clean_Pause entry. */
  ghost predicate HasCleanPause(logs: seq<Value>) {
    exists i :: 0 <= i < |logs| && IsCleanPauseEntry(logs[i])
  }

  /** Scans the log entries in order, stopping at the first Clean_Pause entry. */
  function ScanForCleanPause(logs: seq<Value>): (found: bool)
    ensures found <==> HasCleanPause(logs)
  {
    if |logs| == 0 then false
    else if IsCleanPauseEntry(logs[0]) then true
    else
      var found := ScanForCleanPause(logs[1..]);
      assert HasCleanPause(logs[1..]) ==> HasCleanPause(logs) by {
        if HasCleanPause(logs[1..]) {
          var i :| 0 <= i < |logs[1..]| && IsCleanPauseEntry(logs[1..][i]);
          assert IsCleanPauseEntry(logs[i + 1]);
        }
      }
      assert HasCleanPause(logs) ==> HasCleanPause(logs[1..]) by {
        if HasCleanPause(logs) {
          var i :| 0 <= i < |logs| && IsCleanPauseEntry(logs[i]);
          assert i != 0;
          assert IsCleanPauseEntry(logs[1..][i - 1]);
        }
      }
      found
  }

  /**
    Go's decision. A missing, non-boolean or false `online` means reset whatever the
    logs hold; with `online` true, reset iff some entry is a map whose `value` is the
    string "Clean_Pause" (entries that are not maps, or whose `value` is not that
    string, are ignored).
  */
  function NeedsResetGo(result: map<string, Value>, logs: seq<Value>): (reset: bool)
    ensures !ReportsOnline(result) ==> reset
    ensures ReportsOnline(result) ==> (reset <==> HasCleanPause(logs))
  {
    var online := OnlineFlag(result);
    if online.None? || !online.value then true else ScanForCleanPause(logs)
  }

  /** With `online` true and no history (empty, or nil after a failed fetch), there is no reset. */
  lemma OnlineWithoutHistoryNoReset(result: map<string, Value>)
    requires ReportsOnline(result)
    ensures !NeedsResetGo(result, [])
  {
  }

  /** The position of entries does not matter: the decision is the same for any reordering into two halves. */
  lemma NeedsResetGoOrderFree(result: map<string, Value>, xs: seq<Value>, ys: seq<Value>)
    ensures NeedsResetGo(result, xs + ys) == NeedsResetGo(result, ys + xs)
  {
    if ReportsOnline(result) {
      CleanPauseInConcat(xs, ys);
      CleanPauseInConcat(ys, xs);
    }
  }

  /** A concatenation holds a Clean_Pause entry iff one of its halves does. */
  lemma CleanPauseInConcat(xs: seq<Value>, ys: seq<Value>)
    ensures HasCleanPause(xs + ys) <==> HasCleanPause(xs) || HasCleanPause(ys)
  {
    var zs := xs + ys;
    if HasCleanPause(zs) {
      var i :| 0 <= i < |zs| && IsCleanPauseEntry(zs[i]);
      if i < |xs| {
        assert IsCleanPauseEntry(xs[i]);
      } else {
        assert IsCleanPauseEntry(ys[i - |xs|]);
      }
    }
    if HasCleanPause(xs) {
      var i :| 0 <= i < |xs| && IsCleanPauseEntry(xs[i]);
      assert IsCleanPauseEntry(zs[i]);
    }
    if HasCleanPause(ys) {
      var i :| 0 <= i < |ys| && IsCleanPauseEntry(ys[i]);
      assert IsCleanPauseEntry(zs[|xs| + i]);
    }
  }

  /** Entries that are not Clean_Pause entries (non-maps, other values, non-string values) change nothing. */
  lemma IgnoredEntriesChangeNothing(result: map<string, Value>, logs: seq<Value>, extra: seq<Value>)
    requires forall i :: 0 <= i < |extra| ==> !IsCleanPauseEntry(extra[i])
    ensures NeedsResetGo(result, logs + extra) == NeedsResetGo(result, logs)
    ensures NeedsResetGo(result, extra + logs) == NeedsResetGo(result, logs)
  {
    CleanPauseInConcat(logs, extra);
    CleanPauseInConcat(extra, logs);
  }

  // ---------------------------------------------------------------------------
  // Python: needs_reset(status)
  // ---------------------------------------------------------------------------

  /** The status's `dps` reports data point "110" as the string "Clean_Pause". */
  predicate ReportsCleanPause(status: map<string, Value>) {
    && "dps" in status
    && status["dps"].Map?
    && OperationDp in status["dps"].fields
    && status["dps"].fields[OperationDp] == Str(CleanPause)
  }

  /**
    Python's decision. An empty status or one without `dps` never resets; a `dps`
    that is not a dict makes `dps.get` raise; otherwise reset iff data point "110"
    equals "Clean_Pause".
  */
  function NeedsResetPy(status: map<string, Value>): (r: PyOutcome<bool>)
    ensures "dps" !in status ==> r == Returns(false)
    ensures r == Returns(true) <==> ReportsCleanPause(status)
    ensures r.Raises? <==> "dps" in status && !status["dps"].Map?
    ensures r.Raises? ==> r.exception == AttributeError
  {
    if |status| == 0 || "dps" !in status then Returns(false)
    else
      match status["dps"]
      case Map(dps) =>
        var operation := if OperationDp in dps then dps[OperationDp] else Null;
        Returns(operation == Str(CleanPause))
      case _ => Raises(AttributeError)
  }

  /** No data point other than "110" influences Python's decision. */
  lemma OnlyOperationDpMatters(status: map<string, Value>, key: string, v: Value)
    requires "dps" in status && status["dps"].Map?
    requires key != OperationDp
    ensures NeedsResetPy(status["dps" := Map(status["dps"].fields[key := v])]) == NeedsResetPy(status)
  {
  }

  /**
    The two versions disagree on a device that reports neither `online` nor `dps`:
    Go resets it whatever the logs hold, Python does not.
  */
  lemma VersionsDisagreeOnNoData(result: map<string, Value>, logs: seq<Value>)
    requires "online" !in result && "dps" !in result
    ensures NeedsResetGo(result, logs)
    ensures NeedsResetPy(result) == Returns(false)
  {
  }
}

=== FILE: config.dfy ===
/**
  Startup configuration read from the (already loaded) environment: Go's
  `loadConfig` and the corresponding checks at the start of Python's `main`.
  `os.Getenv` becomes a lookup in an explicit map; library parsers whose grammar is
  not part of this model (`time.ParseDuration`, Python's `float`) are parameters.
*/
module Config {
  import opened Results
  import opened EnvFile

  /** Cloud endpoints for one region. */
  datatype Endpoints = Endpoints(apiHost: string, msgHost: string)

  /** `regionConfig`: the regions the Go agent knows, with their endpoints. */
  const RegionEndpoints: map<string, Endpoints> := map[
    "eu" := Endpoints("https://openapi.tuyaeu.com", "pulsar+ssl://mqe.tuyaeu.com:7285/"),
    "us" := Endpoints("https://openapi.tuyaus.com", "pulsar+ssl://mqe.tuyaus.com:7285/"),
    "cn" := Endpoints("https://openapi.tuyacn.com", "pulsar+ssl://mqe.tuyacn.com:7285/"),
    "in" := Endpoints("https://openapi.tuyain.com", "pulsar+ssl://mqe.tuyain.com:7285/")
  ]

  /** The region used when `TUYA_REGION` is empty or unset. */
  const DefaultRegion: string := "eu"

  /** `os.Getenv`: the value of `key`, or the empty string when it is unset. */
  function Getenv(env: map<string, string>, key: string): string {
    GetenvOr(env, key, "")
  }

  /** The Go agent's configuration; `shutdownDelay` is a `time.Duration` in nanoseconds. */
  datatype GoConfig = GoConfig(
    accessId: string,
    accessKey: string,
    region: string,
    deviceId: string,
    shutdownDelay: int,
    debug: bool)

  datatype ConfigError =
    | MissingRequired
    | InvalidRegion(region: string)
    | InvalidShutdownDelay(text: string)

  /**
    Go's `loadConfig`. The three credentials are required; an empty region becomes
    "eu"; a region other than eu, us, cn, in is an error; a non-empty
    `SHUTDOWN_DELAY` must parse as a duration. Checks happen in that order.
  */
  function LoadConfigGo(env: map<string, string>, parseDuration: string -> Option<int>)
    : (r: Result<GoConfig, ConfigError>)
    ensures var id := Getenv(env, "TUYA_ACCESS_ID");
            var key := Getenv(env, "TUYA_ACCESS_KEY");
            var dev := Getenv(env, "TUYA_DEVICE_ID");
            var region := Getenv(env, "TUYA_REGION");
            var delay := Getenv(env, "SHUTDOWN_DELAY");
            && ((id == "" || key == "" || dev == "") ==> r == Failure(MissingRequired))
            && (id != "" && key != "" && dev != "" && region !in {"", "eu", "us", "cn", "in"} ==>
                  r == Failure(InvalidRegion(region)))
            && (id != "" && key != "" && dev != "" && region in {"", "eu", "us", "cn", "in"}
                && delay != "" && parseDuration(delay).None? ==>
                  r == Failure(InvalidShutdownDelay(delay)))
            && (r.Success? <==>
                  id != "" && key != "" && dev != "" && region in {"", "eu", "us", "cn", "in"}
                  && (delay == "" || parseDuration(delay).Some?))
            && (r.Success? ==>
                  && r.value.accessId == id && r.value.accessKey == key && r.value.deviceId == dev
                  && r.value.region in RegionEndpoints
                  && r.value.region == (if region == "" then "eu" else region)
                  && r.value.debug == (Getenv(env, "DEBUG") == "true")
                  && r.value.shutdownDelay == (if delay == "" then 0 else parseDuration(delay).value))
  {
    var id := Getenv(env, "TUYA_ACCESS_ID");
    var key := Getenv(env, "TUYA_ACCESS_KEY");
    var dev := Getenv(env, "TUYA_DEVICE_ID");
    var debug := Getenv(env, "DEBUG") == "true";
    if id == "" || key == "" || dev == "" then Failure(MissingRequired)
    else
      var region := if Getenv(env, "TUYA_REGION") == "" then DefaultRegion else Getenv(env, "TUYA_REGION");
      if region !in RegionEndpoints then Failure(InvalidRegion(region))
      else
        var delayText := Getenv(env, "SHUTDOWN_DELAY");
        if delayText == "" then Success(GoConfig(id, key, region, dev, 0, debug))
        else
          match parseDuration(delayText)
          case None => Failure(InvalidShutdownDelay(delayText))
          case Some(d) => Success(GoConfig(id, key, region, dev, d, debug))
  }

  /** The Python agent's configuration. */
  datatype PyConfig = PyConfig(
    deviceIp: string,
    deviceId: string,
    localKey: string,
    version: real,
    shutdownDelay: string)

  datatype PyConfigError = MissingDeviceSettings | InvalidProtocolVersion(text: string)

  /** `os.getenv(key, default)`: the value when set (even if empty), else the default. */
  function GetenvOr(env: map<string, string>, key: string, default: string): string {
    match Lookup(env, key)
    case Some(value) => value
    case None => default
  }

  /**
    The configuration part of Python's `main`: `DEVICE_IP`, `DEVICE_ID` and `LOCAL_KEY`
    must be set and non-empty; `PROTOCOL_VERSION` (default "3.3") must parse as a float;
    `SHUTDOWN_DELAY` defaults to "0".
  */
  function LoadConfigPy(env: map<string, string>, parseFloat: string -> Option<real>)
    : (r: Result<PyConfig, PyConfigError>)
    ensures Getenv(env, "DEVICE_IP") == "" || Getenv(env, "DEVICE_ID") == "" || Getenv(env, "LOCAL_KEY") == "" ==>
              r == Failure(MissingDeviceSettings)
    ensures r.Success? <==>
              Getenv(env, "DEVICE_IP") != "" && Getenv(env, "DEVICE_ID") != "" && Getenv(env, "LOCAL_KEY") != ""
              && parseFloat(GetenvOr(env, "PROTOCOL_VERSION", "3.3")).Some?
    ensures Getenv(env, "DEVICE_IP") != "" && Getenv(env, "DEVICE_ID") != "" && Getenv(env, "LOCAL_KEY") != ""
            && parseFloat(GetenvOr(env, "PROTOCOL_VERSION", "3.3")).None? ==>
              r == Failure(InvalidProtocolVersion(GetenvOr(env, "PROTOCOL_VERSION", "3.3")))
    ensures r.Success? ==>
              && r.value.deviceIp == env["DEVICE_IP"] && r.value.deviceId == env["DEVICE_ID"]
              && r.value.localKey == env["LOCAL_KEY"]
              && r.value.shutdownDelay == (if "SHUTDOWN_DELAY" in env then env["SHUTDOWN_DELAY"] else "0")
              && parseFloat(if "PROTOCOL_VERSION" in env then env["PROTOCOL_VERSION"] else "3.3")
                 == Some(r.value.version)
  {
    var ip := Getenv(env, "DEVICE_IP");
    var id := Getenv(env, "DEVICE_ID");
    var key := Getenv(env, "LOCAL_KEY");
    if ip == "" || id == "" || key == "" then Failure(MissingDeviceSettings)
    else
      var versionText := GetenvOr(env, "PROTOCOL_VERSION", "3.3");
      match parseFloat(versionText)
      case None => Failure(InvalidProtocolVersion(versionText))
      case Some(v) => Success(PyConfig(ip, id, key, v, GetenvOr(env, "SHUTDOWN_DELAY", "0")))
  }
}

=== FILE: delay.dfy ===
/**
  The trailing sleep of Python's `main`: `SHUTDOWN_DELAY` is "<n>m" (minutes),
  "<n>s" (seconds) or "<n>" (seconds), where `<n>` is read by Python's `int()`.
  An empty value, the value "0", a value `int()` rejects, or a result that is not
  positive means no sleep.
*/
module Delay {
  import opened Results
  import opened Text

  /**
    The digit part `int()` accepts: ASCII digits, with single underscores allowed
    between two digits.
  */
  predicate WellFormedDigits(d: string) {
    && |d| > 0
    && IsDigit(d[0]) && IsDigit(d[|d| - 1])
    && (forall i :: 0 <= i < |d| ==> IsDigit(d[i]) || d[i] == '_')
    && (forall i :: 0 <= i < |d| - 1 ==> d[i] == '_' ==> d[i + 1] != '_')
  }

  /** The decimal value of digits, underscores being separators without value. */
  function DigitsValue(d: string): (n: nat)
    requires forall i :: 0 <= i < |d| ==> IsDigit(d[i]) || d[i] == '_'
    decreases |d|
  {
    if |d| == 0 then 0
    else
      var last := d[|d| - 1];
      if last == '_' then DigitsValue(d[..|d| - 1])
      else DigitsValue(d[..|d| - 1]) * 10 + DigitValue(last)
  }

  /**
    Python's `int(s)` in base 10: surrounding whitespace, an optional sign, then digits.
    The whitespace `int()` skips is not the set `str.strip()` removes: CPython maps
    non-ASCII whitespace to a space and then skips only ASCII whitespace, so the
    separators U+001C..U+001F, which `str.strip()` does remove, make `int()` fail. The
    set it skips is exactly Go's `unicode.IsSpace`, hence `Trim(Go, _)`.
  */
  function PyInt(s: string): (r: Option<int>)
    ensures r.Some? ==> var t := Trim(Go, s); |t| > 0 && (r.value < 0 ==> t[0] == '-')
    ensures r.Some? ==> var t := Trim(Go, s);
              && (IsDigit(t[0]) || t[0] == '+' || t[0] == '-')
              && IsDigit(t[|t| - 1])
              && (forall i :: 1 <= i < |t| ==> IsDigit(t[i]) || t[i] == '_')
  {
    var t := Trim(Go, s);
    var negative := |t| > 0 && t[0] == '-';
    var digits := if |t| > 0 && (t[0] == '+' || t[0] == '-') then t[1..] else t;
    if WellFormedDigits(digits) then
      var n: int := DigitsValue(digits);
      Some(if negative then -n else n)
    else None
  }

  /** The decimal representation of a number is read back as that number. */
  lemma {:induction false} DigitsValueOfDecimal(n: nat)
    ensures DigitsValue(DecimalString(n)) == n
    decreases n
  {
    var s := DecimalString(n);
    if n < 10 {
      assert s == [DigitChar(n)];
      assert s[..0] == [];
      assert DigitsValue(s) == DigitsValue(s[..0]) * 10 + DigitValue(s[0]);
    } else {
      var init := DecimalString(n / 10);
      assert s == init + [DigitChar(n % 10)];
      assert s[..|s| - 1] == init;
      DigitsValueOfDecimal(n / 10);
      assert DigitsValue(s) == DigitsValue(init) * 10 + DigitValue(DigitChar(n % 10));
    }
  }

  /** The decimal representation of a number has the digit form `int()` accepts. */
  lemma DecimalWellFormed(n: nat)
    ensures WellFormedDigits(DecimalString(n))
    ensures IsTrimmed(Go, DecimalString(n))
  {
    var s := DecimalString(n);
    assert IsDigit(s[0]) && IsDigit(s[|s| - 1]);
  }

  /** `int(str(n)) == n`. */
  lemma PyIntOfDecimal(n: nat)
    ensures PyInt(DecimalString(n)) == Some(n)
  {
    var s := DecimalString(n);
    DecimalWellFormed(n);
    TrimOfTrimmed(Go, s);
    assert s[0] != '+' && s[0] != '-' by { assert IsDigit(s[0]); }
    DigitsValueOfDecimal(n);
  }

  /** `int("-" + str(n)) == -n`. */
  lemma PyIntOfNegativeDecimal(n: nat)
    ensures PyInt("-" + DecimalString(n)) == Some(-(n as int))
  {
    var s := DecimalString(n);
    var m := "-" + s;
    NegativeDecimalTrimmed(n);
    assert m[1..] == s;
    DecimalWellFormed(n);
    DigitsValueOfDecimal(n);
  }

  /** A minus sign followed by digits has no whitespace to strip. */
  lemma NegativeDecimalTrimmed(n: nat)
    ensures Trim(Go, "-" + DecimalString(n)) == "-" + DecimalString(n)
  {
    var s := DecimalString(n);
    var m := "-" + s;
    assert IsDigit(s[|s| - 1]);
    assert m[|m| - 1] == s[|s| - 1];
    TrimOfTrimmed(Go, m);
  }

  /** `s.endswith(c)` for a one-character suffix. */
  predicate EndsWith(s: string, c: char) {
    |s| > 0 && s[|s| - 1] == c
  }

  /** `int(...) * 60`: minutes in seconds, or the `ValueError` passed on. */
  function InSeconds(minutes: Option<int>): (r: Option<int>)
    ensures r.None? <==> minutes.None?
    ensures r.Some? ==> r.value % 60 == 0 && r.value / 60 == minutes.value
  {
    match minutes
    case Some(m) => Some(m * 60)
    case None => None
  }

  /** The number of seconds the `try` block computes, or `None` for the `ValueError`. */
  function DelayAmount(raw: string): (r: Option<int>)
    ensures EndsWith(raw, 'm') && r.Some? ==> r.value % 60 == 0
  {
    if EndsWith(raw, 'm') then InSeconds(PyInt(raw[..|raw| - 1]))
    else if EndsWith(raw, 's') then PyInt(raw[..|raw| - 1])
    else PyInt(raw)
  }

  /**
    Seconds to sleep before exit, or `None` for no sleep. A value `int()` rejects is
    the `ValueError` that `main` swallows.
  */
  function ShutdownDelaySeconds(raw: string): (r: Option<nat>)
    ensures raw == "" || raw == "0" ==> r == None
    ensures r.Some? ==> r.value > 0 && DelayAmount(raw) == Some(r.value)
    ensures raw != "" && raw != "0" ==>
              (r.Some? <==> DelayAmount(raw).Some? && DelayAmount(raw).value > 0)
    ensures EndsWith(raw, 'm') && r.Some? ==> r.value % 60 == 0
  {
    if raw == "" || raw == "0" then None
    else
      match DelayAmount(raw)
      case Some(seconds) => if seconds > 0 then Some(seconds) else None
      case None => None
  }

  /** A value `int()` rejects means no sleep. */
  lemma RejectedDelayNeverSleeps(raw: string)
    requires DelayAmount(raw).None?
    ensures ShutdownDelaySeconds(raw) == None
  {
  }

  /** The decimal representation of a number ends in a digit, so in neither unit letter, and is "0" only for zero. */
  lemma DecimalEnding(n: nat)
    ensures !EndsWith(DecimalString(n), 'm') && !EndsWith(DecimalString(n), 's')
    ensures DecimalString(n) == "0" ==> n == 0
  {
    var s := DecimalString(n);
    assert IsDigit(s[|s| - 1]);
    if s == "0" {
      DigitsValueOfDecimal(n);
      assert DigitsValue(s) == DigitsValue(s[..0]) * 10 + DigitValue('0');
    }
  }

  /** A value with the unit 'm' is `int()` of the text before it, times 60. */
  lemma AmountOfMinutes(body: string)
    ensures DelayAmount(body + "m").None? <==> PyInt(body).None?
    ensures PyInt(body).Some? ==> DelayAmount(body + "m") == Some(PyInt(body).value * 60)
  {
    var raw := body + "m";
    assert raw[..|raw| - 1] == body;
  }

  /** A value with the unit 's' is `int()` of the text before it. */
  lemma AmountOfSeconds(body: string)
    ensures DelayAmount(body + "s") == PyInt(body)
  {
    var raw := body + "s";
    assert raw[..|raw| - 1] == body;
  }

  /** A value with neither unit is `int()` of the whole text. */
  lemma AmountOfBare(raw: string)
    requires !EndsWith(raw, 'm') && !EndsWith(raw, 's')
    ensures DelayAmount(raw) == PyInt(raw)
  {
  }

  /** `int()` does not skip U+001C, which `str.strip()` would. */
  lemma SeparatorIsNotIntWhitespace()
    ensures PyInt("5" + [0x1C as char]) == None
  {
    var body := "5" + [0x1C as char];
    assert IsTrimmed(Go, body);
    TrimOfTrimmed(Go, body);
    assert !IsDigit(body[1]);
  }

  /** So "5\x1cm" means no sleep. */
  lemma SeparatorDelayNeverSleeps()
    ensures ShutdownDelaySeconds("5" + [0x1C as char] + "m") == None
  {
    SeparatorIsNotIntWhitespace();
    AmountOfMinutes("5" + [0x1C as char]);
  }

  /** "<n>m" sleeps n minutes. */
  lemma ShutdownDelayMinutes(n: nat)
    requires n > 0
    ensures ShutdownDelaySeconds(DecimalString(n) + "m") == Some(n * 60)
  {
    var raw := DecimalString(n) + "m";
    PyIntOfDecimal(n);
    AmountOfMinutes(DecimalString(n));
    assert raw != "0" by { assert |raw| >= 2; }
  }

  /** "<n>s" sleeps n seconds. */
  lemma ShutdownDelaySecondsSuffix(n: nat)
    requires n > 0
    ensures ShutdownDelaySeconds(DecimalString(n) + "s") == Some(n)
  {
    var s := DecimalString(n);
    var raw := s + "s";
    assert raw[..|raw| - 1] == s;
    PyIntOfDecimal(n);
    assert DelayAmount(raw) == Some(n);
    assert raw != "0" by { assert |raw| >= 2; }
  }

  /** "<n>" with no unit sleeps n seconds. */
  lemma ShutdownDelayBare(n: nat)
    requires n > 0
    ensures ShutdownDelaySeconds(DecimalString(n)) == Some(n)
  {
    PyIntOfDecimal(n);
    DecimalEnding(n);
    assert DelayAmount(DecimalString(n)) == Some(n);
  }

  /** "-<n>m" never sleeps. */
  lemma NegativeMinutesNeverSleep(n: nat)
    ensures ShutdownDelaySeconds("-" + DecimalString(n) + "m") == None
  {
    var raw := "-" + DecimalString(n) + "m";
    PyIntOfNegativeDecimal(n);
    AmountOfMinutes("-" + DecimalString(n));
    var minutes := -(n as int);
    assert minutes * 60 <= 0;
    assert raw != "0" by { assert |raw| >= 2; }
  }

  /** "-<n>s" never sleeps. */
  lemma NegativeSecondsNeverSleep(n: nat)
    ensures ShutdownDelaySeconds("-" + DecimalString(n) + "s") == None
  {
    var neg := "-" + DecimalString(n);
    var raw := neg + "s";
    assert raw[..|raw| - 1] == neg;
    PyIntOfNegativeDecimal(n);
    assert DelayAmount(raw) == Some(-(n as int));
  }

  /** "-<n>" never sleeps. */
  lemma NegativeBareNeverSleeps(n: nat)
    ensures ShutdownDelaySeconds("-" + DecimalString(n)) == None
  {
    var s := DecimalString(n);
    var neg := "-" + s;
    assert neg[|neg| - 1] == s[|s| - 1];
    DecimalEnding(n);
    PyIntOfNegativeDecimal(n);
    assert DelayAmount(neg) == Some(-(n as int));
    assert neg != "0" by { assert neg[0] == '-'; }
  }
}

=== FILE: envfile.dfy ===
/**
  `.env` loading: Go's `loadEnvFile` and Python's `load_env`, with the process
  environment replaced by an explicit map and the file by its sequence of lines.

  Each line is trimmed; blank lines and lines starting with `#` are skipped; a line
  without `=` is ignored; otherwise it is split at its first `=` and the trimmed key
  is set to the trimmed value, overriding any earlier value. The versions differ in
  what counts as whitespace (see `Text.IsSpace`) and in what happens when the
  environment refuses a name: Go's `os.Setenv` returns an error that `loadEnvFile`
  ignores, Python's `os.environ[...] = ...` raises (`ValueError` for a NUL or `=`,
  `OSError` from POSIX `setenv` for an empty name), which `load_env` does not catch.
*/
module EnvFile {
  import opened Results
  import opened Text

  /** How one line of a `.env` file is read. */
  datatype EnvLine = Blank | Comment | NoAssignment | Assignment(key: string, value: string)

  /** `i` is the position of the first `=` in `line`. */
  ghost predicate FirstEquals(line: string, i: int) {
    0 <= i < |line| && line[i] == '=' && '=' !in line[..i]
  }

  /** Reads one line: trim, skip blank and `#` lines, split at the first `=`, trim both halves. */
  function ParseEnvLine(lang: Lang, raw: string): (p: EnvLine)
    ensures var line := Trim(lang, raw);
            && (p.Blank? <==> line == "")
            && (p.Comment? <==> line != "" && line[0] == '#')
            && (p.NoAssignment? <==> line != "" && line[0] != '#' && '=' !in line)
            && (p.Assignment? ==>
                  exists i :: FirstEquals(line, i)
                    && p.key == Trim(lang, line[..i]) && p.value == Trim(lang, line[i + 1..]))
  {
    ReadTrimmedLine(lang, Trim(lang, raw))
  }

  /** Reads a line that is already trimmed. */
  function ReadTrimmedLine(lang: Lang, line: string): EnvLine {
    if line == "" then Blank
    else if HasPrefix(line, "#") then Comment
    else
      match IndexOf(line, '=')
      case None => NoAssignment
      case Some(i) => Assignment(Trim(lang, line[..i]), Trim(lang, line[i + 1..]))
  }

  /** A `KEY=VALUE` line written from a well-formed key and a trimmed value reads back as that assignment. */
  lemma ParseFormattedLine(lang: Lang, key: string, value: string)
    requires key != "" && key[0] != '#' && '=' !in key
    requires IsTrimmed(lang, key) && IsTrimmed(lang, value)
    ensures ParseEnvLine(lang, key + "=" + value) == Assignment(key, value)
  {
    var line := key + "=" + value;
    assert IsTrimmed(lang, line) by {
      assert line[0] == key[0];
      if |value| > 0 { assert line[|line| - 1] == value[|value| - 1]; }
    }
    TrimOfTrimmed(lang, line);
    ReadFormattedLine(lang, key, value);
  }

  /** The trimmed line `key + "=" + value` splits back into its key and value. */
  lemma ReadFormattedLine(lang: Lang, key: string, value: string)
    requires key != "" && key[0] != '#' && '=' !in key
    requires IsTrimmed(lang, key) && IsTrimmed(lang, value)
    ensures ReadTrimmedLine(lang, key + "=" + value) == Assignment(key, value)
  {
    FormattedLineSplits(lang, key, value);
    FormattedHalvesTrimmed(lang, key, value);
  }

  /** `key + "=" + value` splits right after the key. */
  lemma FormattedLineSplits(lang: Lang, key: string, value: string)
    requires key != "" && key[0] != '#' && '=' !in key
    ensures var line := key + "=" + value;
            ReadTrimmedLine(lang, line)
            == Assignment(Trim(lang, line[..|key|]), Trim(lang, line[|key| + 1..]))
  {
    var line := key + "=" + value;
    assert !HasPrefix(line, "#") by { assert line[0] == key[0]; }
    FirstEqualsAfterKey(key, value);
    ReadSplitsAt(lang, line, |key|);
  }

  /** The two halves of `key + "=" + value` trim back to the key and the value. */
  lemma FormattedHalvesTrimmed(lang: Lang, key: string, value: string)
    requires IsTrimmed(lang, key) && IsTrimmed(lang, value)
    ensures var line := key + "=" + value;
            Trim(lang, line[..|key|]) == key && Trim(lang, line[|key| + 1..]) == value
  {
    var line := key + "=" + value;
    assert line[..|key|] == key;
    assert line[|key| + 1..] == value;
    TrimOfTrimmed(lang, key);
    TrimOfTrimmed(lang, value);
  }

  /** A non-comment line whose first `=` is at `i` is the assignment of its trimmed halves. */
  lemma ReadSplitsAt(lang: Lang, line: string, i: nat)
    requires line != "" && !HasPrefix(line, "#") && IndexOf(line, '=') == Some(i)
    ensures ReadTrimmedLine(lang, line) == Assignment(Trim(lang, line[..i]), Trim(lang, line[i + 1..]))
  {
  }

  /** In `key + "=" + value` with no `=` in the key, the first `=` follows the key. */
  lemma FirstEqualsAfterKey(key: string, value: string)
    requires '=' !in key
    ensures IndexOf(key + "=" + value, '=') == Some(|key|)
  {
    var line := key + "=" + value;
    assert line[|key|] == '=';
    assert line[..|key|] == key;
  }

  /** The names and values `os.Setenv` (and CPython's `putenv`) accept. */
  predicate AcceptedByEnvironment(key: string, value: string) {
    key != "" && '=' !in key && '\0' !in key && '\0' !in value
  }

  /** `raw` is read as an assignment to `key`. */
  predicate AssignsKey(lang: Lang, raw: string, key: string) {
    var p := ParseEnvLine(lang, raw);
    p.Assignment? && p.key == key
  }

  /** The entry of `env` for `key`, if any. */
  function Lookup(env: map<string, string>, key: string): Option<string> {
    if key in env then Some(env[key]) else None
  }

  /**
    One line of Go's `loadEnvFile`: an assignment the environment accepts sets its
    variable; every other variable, and every variable of any other line, is unchanged.
  */
  function ApplyLineGo(env: map<string, string>, raw: string): (env': map<string, string>)
    ensures env.Keys <= env'.Keys
    ensures forall k :: !AssignsKey(Go, raw, k) ==> Lookup(env', k) == Lookup(env, k)
    ensures ParseEnvLine(Go, raw).Assignment? ==>
              var a := ParseEnvLine(Go, raw);
              Lookup(env', a.key) == if AcceptedByEnvironment(a.key, a.value) then Some(a.value)
                                     else Lookup(env, a.key)
  {
    var p := ParseEnvLine(Go, raw);
    if p.Assignment? && AcceptedByEnvironment(p.key, p.value) then
      LookupAfterSet(env, p.key, p.value);
      env[p.key := p.value]
    else env
  }

  /** Setting one variable changes the lookup of that variable only. */
  lemma LookupAfterSet(env: map<string, string>, key: string, value: string)
    ensures Lookup(env[key := value], key) == Some(value)
    ensures forall k :: k != key ==> Lookup(env[key := value], k) == Lookup(env, k)
  {
  }

  /** A well-formed `KEY=VALUE` line sets exactly that variable to exactly that value. */
  lemma ApplyFormattedLineGo(env: map<string, string>, key: string, value: string)
    requires key != "" && key[0] != '#' && '=' !in key && '\0' !in key && '\0' !in value
    requires IsTrimmed(Go, key) && IsTrimmed(Go, value)
    ensures ApplyLineGo(env, key + "=" + value) == env[key := value]
  {
    var line := key + "=" + value;
    ParseFormattedLine(Go, key, value);
    assert ParseEnvLine(Go, line) == Assignment(key, value);
    assert AcceptedByEnvironment(key, value);
  }

  /** Go's `loadEnvFile` over the lines of the file, first line first; nothing is ever unset. */
  function LoadEnvGo(env: map<string, string>, lines: seq<string>): (env': map<string, string>)
    ensures env.Keys <= env'.Keys
    decreases |lines|
  {
    if |lines| == 0 then env
    else ApplyLineGo(LoadEnvGo(env, lines[..|lines| - 1]), lines[|lines| - 1])
  }

  /** A variable that no line assigns keeps its value (or stays unset). */
  lemma {:induction false} UnassignedKeyUnchanged(env: map<string, string>, lines: seq<string>, key: string)
    requires forall i :: 0 <= i < |lines| ==> !AssignsKey(Go, lines[i], key)
    ensures Lookup(LoadEnvGo(env, lines), key) == Lookup(env, key)
    decreases |lines|
  {
    if |lines| > 0 {
      var init := lines[..|lines| - 1];
      assert forall i :: 0 <= i < |init| ==> init[i] == lines[i];
      UnassignedKeyUnchanged(env, init, key);
      assert !AssignsKey(Go, lines[|lines| - 1], key);
    }
  }

  /** A final well-formed `KEY=VALUE` line decides the variable, whatever came before. */
  lemma LastAssignmentWins(env: map<string, string>, lines: seq<string>, key: string, value: string)
    requires key != "" && key[0] != '#' && '=' !in key && '\0' !in key && '\0' !in value
    requires IsTrimmed(Go, key) && IsTrimmed(Go, value)
    ensures Lookup(LoadEnvGo(env, lines + [key + "=" + value]), key) == Some(value)
  {
    var line := key + "=" + value;
    var all := lines + [line];
    assert all[..|all| - 1] == lines;
    assert all[|all| - 1] == line;
    var before := LoadEnvGo(env, lines);
    assert LoadEnvGo(env, all) == ApplyLineGo(before, line);
    ParseFormattedLine(Go, key, value);
    assert ApplyLineGo(before, line) == before[key := value];
  }

  /** `raw` is read by Python as an assignment the environment refuses. */
  predicate RefusedByPython(raw: string) {
    var p := ParseEnvLine(Py, raw);
    p.Assignment? && !AcceptedByEnvironment(p.key, p.value)
  }

  /**
    What CPython's `os.environ[key] = value` raises on POSIX, if anything: a NUL in
    either string fails the conversion to bytes and a `=` in the name is refused, both
    with `ValueError`; an empty name reaches `setenv`, whose `EINVAL` becomes `OSError`.
  */
  function EnvRefusal(key: string, value: string): (e: Option<PyException>)
    ensures e.None? <==> AcceptedByEnvironment(key, value)
    ensures e == Some(OSError) <==> key == "" && '\0' !in value
    ensures e.Some? && e != Some(OSError) ==> e == Some(ValueError)
  {
    if '\0' in key || '\0' in value || '=' in key then Some(ValueError)
    else if key == "" then Some(OSError)
    else None
  }

  /** One line of Python's `load_env`: like Go, except that a refused name or value raises. */
  function ApplyLinePy(env: map<string, string>, raw: string): (r: PyOutcome<map<string, string>>)
    ensures r.Returns? ==> env.Keys <= r.value.Keys
    ensures r.Raises? <==> RefusedByPython(raw)
    ensures r.Returns? ==> forall k :: !AssignsKey(Py, raw, k) ==> Lookup(r.value, k) == Lookup(env, k)
    ensures r.Returns? && ParseEnvLine(Py, raw).Assignment? ==>
              Lookup(r.value, ParseEnvLine(Py, raw).key) == Some(ParseEnvLine(Py, raw).value)
    ensures r.Raises? ==>
              var a := ParseEnvLine(Py, raw);
              r.exception == (if a.key == "" && '\0' !in a.value then OSError else ValueError)
  {
    var p := ParseEnvLine(Py, raw);
    if !p.Assignment? then Returns(env)
    else
      var refusal := EnvRefusal(p.key, p.value);
      if refusal.Some? then Raises(refusal.value)
      else
        LookupAfterSet(env, p.key, p.value);
        Returns(env[p.key := p.value])
  }

  /** Python's `load_env` over the lines of the file; the first exception ends it, and nothing is ever unset. */
  function LoadEnvPy(env: map<string, string>, lines: seq<string>): (r: PyOutcome<map<string, string>>)
    ensures r.Returns? ==> env.Keys <= r.value.Keys
    decreases |lines|
  {
    if |lines| == 0 then Returns(env)
    else
      match LoadEnvPy(env, lines[..|lines| - 1])
      case Returns(env') => ApplyLinePy(env', lines[|lines| - 1])
      case Raises(e) => Raises(e)
  }

  /** Python's `load_env` raises only on an assignment the environment refuses. */
  lemma {:induction false} LoadEnvPyRaisesOnlyOnRefusal(env: map<string, string>, lines: seq<string>)
    requires forall i :: 0 <= i < |lines| ==> !RefusedByPython(lines[i])
    ensures LoadEnvPy(env, lines).Returns?
    decreases |lines|
  {
    if |lines| > 0 {
      var init := lines[..|lines| - 1];
      assert forall i :: 0 <= i < |init| ==> init[i] == lines[i];
      LoadEnvPyRaisesOnlyOnRefusal(env, init);
      assert !RefusedByPython(lines[|lines| - 1]);
    }
  }

  /** Python's `load_env` raises once any line is an assignment the environment refuses. */
  lemma {:induction false} LoadEnvPyRaisesOnRefusal(env: map<string, string>, lines: seq<string>, i: nat)
    requires i < |lines| && RefusedByPython(lines[i])
    ensures LoadEnvPy(env, lines).Raises?
    decreases |lines|
  {
    var init := lines[..|lines| - 1];
    if i < |lines| - 1 {
      assert init[i] == lines[i];
      LoadEnvPyRaisesOnRefusal(env, init, i);
    } else if LoadEnvPy(env, init).Returns? {
      assert ApplyLinePy(LoadEnvPy(env, init).value, lines[i]).Raises?;
    }
  }

  /** On a trimmed line without U+001C..U+001F, both versions split it the same way. */
  lemma ReadTrimmedAgrees(line: string)
    requires NoPySeparators(line)
    ensures ReadTrimmedLine(Go, line) == ReadTrimmedLine(Py, line)
  {
    var eq := IndexOf(line, '=');
    if eq.Some? {
      HalvesAgree(line, eq.value);
    }
  }

  /** Both halves around position `i` trim the same way in both versions. */
  lemma HalvesAgree(line: string, i: nat)
    requires NoPySeparators(line) && i < |line|
    ensures Trim(Go, line[..i]) == Trim(Py, line[..i])
    ensures Trim(Go, line[i + 1..]) == Trim(Py, line[i + 1..])
  {
    NoPySeparatorsSlice(line, 0, i);
    NoPySeparatorsSlice(line, i + 1, |line|);
    TrimAgrees(line[..i]);
    TrimAgrees(line[i + 1..]);
  }

  /** On a line without U+001C..U+001F, Go and Python read the same thing. */
  lemma ParseAgrees(raw: string)
    requires NoPySeparators(raw)
    ensures ParseEnvLine(Go, raw) == ParseEnvLine(Py, raw)
  {
    TrimAgrees(raw);
    var line := Trim(Go, raw);
    var a :| CutsWhitespace(Go, raw, a, line);
    NoPySeparatorsSlice(raw, a, a + |line|);
    ReadTrimmedAgrees(line);
  }

  /**
    On a file without U+001C..U+001F and without refused assignments, Python's
    `load_env` and Go's `loadEnvFile` leave the same environment.
  */
  lemma {:induction false} LoadEnvVersionsAgree(env: map<string, string>, lines: seq<string>)
    requires forall i :: 0 <= i < |lines| ==> NoPySeparators(lines[i]) && !RefusedByPython(lines[i])
    ensures LoadEnvPy(env, lines) == Returns(LoadEnvGo(env, lines))
    decreases |lines|
  {
    if |lines| > 0 {
      var init := lines[..|lines| - 1];
      var last := lines[|lines| - 1];
      assert forall i :: 0 <= i < |init| ==> init[i] == lines[i];
      LoadEnvVersionsAgree(env, init);
      ApplyLineAgrees(LoadEnvGo(env, init), last);
    }
  }

  /** One line without the separators and without a refused assignment: both versions apply it alike. */
  lemma ApplyLineAgrees(env: map<string, string>, raw: string)
    requires NoPySeparators(raw) && !RefusedByPython(raw)
    ensures ApplyLinePy(env, raw) == Returns(ApplyLineGo(env, raw))
  {
    ParseAgrees(raw);
  }
}

=== FILE: history.dfy ===
/**
  The shaping half of Go's `getLastDeviceLogs`: the ten-minute query window, the
  check of the reply envelope, and the truncation of the returned logs to at most
  five entries in the order the API returned them.
*/
module History {
  import opened Results
  import opened Telemetry

  /** Length of the history window: ten minutes in milliseconds. */
  const WindowMs: int := 10 * 60 * 1000

  /** The data points whose events are requested. */
  const LogTypes: string := "1,2,3,4,5,6,7,8,9"

  /** At most this many entries are kept. */
  const MaxLogs: nat := 5

  /** The parameters of the history request (its URI query string). */
  datatype LogQuery = LogQuery(deviceId: string, types: string, startMs: int, endMs: int)

  /** A reply of the cloud API: a failed request, or the decoded envelope. */
  datatype ApiReply =
    | TransportFailed(err: string)
    | Replied(success: bool, msg: string, result: map<string, Value>)

  datatype HistoryError = RequestFailed(err: string) | ApiFailure(msg: string) | NoLogsFound

  /** The request for the ten minutes ending at `now` (epoch milliseconds). */
  function LogQueryAt(deviceId: string, now: int): (q: LogQuery)
    ensures q.deviceId == deviceId && q.types == LogTypes
    ensures q.endMs == now && q.endMs - q.startMs == 600000
  {
    LogQuery(deviceId, LogTypes, now - WindowMs, now)
  }

  /** `logs[:min(len(logs), limit)]`: the first `limit` entries, or all when there are fewer. */
  function Truncate(logs: seq<Value>, limit: nat): (kept: seq<Value>)
    ensures |kept| <= limit && |kept| <= |logs|
    ensures |kept| == limit || |kept| == |logs|
    ensures kept == logs[..|kept|]
  {
    var n := if |logs| < limit then |logs| else limit;
    logs[..n]
  }

  /** Truncating twice keeps what truncating once kept. */
  lemma TruncateIdempotent(logs: seq<Value>, limit: nat)
    ensures Truncate(Truncate(logs, limit), limit) == Truncate(logs, limit)
  {
  }

  /** The kept entries followed by the dropped ones are the original list. */
  lemma TruncateSplits(logs: seq<Value>, limit: nat)
    ensures Truncate(logs, limit) + logs[|Truncate(logs, limit)|..] == logs
    ensures |logs| <= limit ==> Truncate(logs, limit) == logs
  {
  }

  /** A reply `getLastDeviceLogs` accepts: success, and a `logs` field that is a non-empty list. */
  predicate DeliversLogs(reply: ApiReply) {
    && reply.Replied? && reply.success && "logs" in reply.result
    && reply.result["logs"].List? && |reply.result["logs"].items| > 0
  }

  /**
    The envelope checks and truncation of `getLastDeviceLogs`. A failed request or a
    reply with `success == false` is an error; so is a reply whose `logs` is missing,
    not a list, or empty. Otherwise the result is the first (at most) five entries.
  */
  function ShapeLogs(reply: ApiReply): (r: Result<seq<Value>, HistoryError>)
    ensures reply.TransportFailed? ==> r == Failure(RequestFailed(reply.err))
    ensures reply.Replied? && !reply.success ==> r == Failure(ApiFailure(reply.msg))
    ensures r.Success? <==> DeliversLogs(reply)
    ensures r.Success? ==>
              var logs := reply.result["logs"].items;
              0 < |r.value| <= MaxLogs && |r.value| <= |logs| && r.value == logs[..|r.value|]
              && (|r.value| == MaxLogs || r.value == logs)
    ensures reply.Replied? && reply.success && r.Failure? ==> r.error == NoLogsFound
  {
    match reply
    case TransportFailed(err) => Failure(RequestFailed(err))
    case Replied(success, msg, result) =>
      if !success then Failure(ApiFailure(msg))
      else
        var logs := ListField(result, "logs");
        if logs.Some? && |logs.value| > 0 then Success(Truncate(logs.value, MaxLogs))
        else Failure(NoLogsFound)
  }

  /** Go's `getLastDeviceLogs` with the clock reading `now` and the request answered by `fetch`. */
  function GetLastDeviceLogs(deviceId: string, now: int, fetch: LogQuery -> ApiReply)
    : (r: Result<seq<Value>, HistoryError>)
    ensures r == ShapeLogs(fetch(LogQuery(deviceId, LogTypes, now - 600000, now)))
    ensures r.Success? ==> 0 < |r.value| <= MaxLogs
  {
    ShapeLogs(fetch(LogQueryAt(deviceId, now)))
  }

  /** The orchestrator's view of the history: an error is treated as no logs at all (a nil slice). */
  function LogsOrNone(r: Result<seq<Value>, HistoryError>): (logs: seq<Value>)
  {
    match r
    case Success(logs) => logs
    case Failure(_) => []
  }
}

=== FILE: results.dfy ===
/** Failure-carrying datatypes shared by every module of the model. */
module Results {

  /** An optional value: `None` stands for an absent or wrongly typed field. */
  datatype Option<+T> = None | Some(value: T)

  /** Either a value or an error describing why there is none. */
  datatype Result<+T, +E> = Success(value: T) | Failure(error: E)

  /** The Python exceptions the modelled code can raise. */
  datatype PyException = AttributeError | ValueError | OSError

  /** The outcome of a Python call: a returned value or a raised exception. */
  datatype PyOutcome<+T> = Returns(value: T) | Raises(exception: PyException)
}

=== FILE: sequencer.dfy ===
/**
  The recovery sequencer: switch the appliance off, wait one second, switch it on,
  wait two seconds, start a manual clean. Sends go to an abstract outcome oracle
  (`respond(k)` is the outcome of the k-th send); sleeps are events of the trace.

  Go's `controlDevice` fails fast: a transport error or a reply with
  `success == false` ends the sequence with an error tagged OFF/ON/CLEAN. Python's
  `control_device` stops only when `set_value` raises; an error payload it returns
  is not inspected.
*/
module Sequencer {
  import opened Results

  /** Where a command goes: a cloud data-point code (Go) or a local data-point index (Python). */
  datatype Target = Code(name: string) | Dp(index: nat)

  /** One control instruction: set `target` to `value`. */
  datatype Command = Command(target: Target, value: bool)

  /** What the sequencer does, in order: send a command or sleep (in nanoseconds). */
  datatype Event = Send(command: Command) | Sleep(nanos: nat)

  /** One second in nanoseconds, Go's `time.Second`. */
  const Second: nat := 1_000_000_000

  /** Which of the three reset steps an error belongs to. */
  datatype StepTag = Off | On | Clean

  datatype Step = Step(tag: StepTag, command: Command)

  /** A command sequence with `pauses[i]` slept after step `i` succeeds. */
  datatype Protocol = Protocol(steps: seq<Step>, pauses: seq<nat>)

  /** Every step but the last is followed by a pause. */
  predicate WellFormed(p: Protocol) {
    |p.steps| == |p.pauses| + 1
  }

  /**
    The outcome of one send: delivered and accepted, failed in transport (Go: an error
    from the request; Python: an exception from `set_value`), or answered with a
    logical failure (Go: `success == false`; Python: an error payload returned).
  */
  datatype SendOutcome = Ok | TransportErr(msg: string) | ApiFail(msg: string)

  /** Which outcomes end the sequence. */
  datatype Policy = FailFast | ExceptionsOnly

  predicate Aborts(policy: Policy, outcome: SendOutcome) {
    match policy
    case FailFast => !outcome.Ok?
    case ExceptionsOnly => outcome.TransportErr?
  }

  datatype SequenceResult = Completed | Aborted(step: StepTag, cause: SendOutcome)

  /** The events that precede the send of step `k` when every earlier step went through. */
  function Prefix(p: Protocol, k: nat): (events: seq<Event>)
    requires WellFormed(p) && k < |p.steps|
    ensures |events| == 2 * k
  {
    if k == 0 then []
    else Prefix(p, k - 1) + [Send(p.steps[k - 1].command), Sleep(p.pauses[k - 1])]
  }

  /** The events of a run in which no step aborts. */
  function FullTrace(p: Protocol): seq<Event>
    requires WellFormed(p)
  {
    var last := |p.steps| - 1;
    Prefix(p, last) + [Send(p.steps[last].command)]
  }

  /** The first of the sends `0 .. n-1` whose outcome aborts under `policy`. */
  function FirstAbort(policy: Policy, respond: nat -> SendOutcome, n: nat): (r: Option<nat>)
    ensures r.Some? ==> r.value < n && Aborts(policy, respond(r.value))
    ensures r.Some? ==> forall j :: 0 <= j < r.value ==> !Aborts(policy, respond(j))
    ensures r.None? ==> forall j :: 0 <= j < n ==> !Aborts(policy, respond(j))
  {
    if n == 0 then None
    else
      var earlier := FirstAbort(policy, respond, n - 1);
      if earlier.Some? then earlier
      else if Aborts(policy, respond(n - 1)) then Some(n - 1)
      else None
  }

  /** The first abort is unique: a send that aborts after only non-aborting sends is it. */
  lemma FirstAbortAt(policy: Policy, respond: nat -> SendOutcome, n: nat, k: nat)
    requires k < n && Aborts(policy, respond(k))
    requires forall j :: 0 <= j < k ==> !Aborts(policy, respond(j))
    ensures FirstAbort(policy, respond, n) == Some(k)
  {
  }

  /**
    Runs the protocol step by step: send, stop on an aborting outcome, otherwise sleep
    the step's pause and continue. Exactly the steps up to the first abort are sent,
    and nothing is sent or slept after it.
  */
  method RunSequence(p: Protocol, policy: Policy, respond: nat -> SendOutcome)
    returns (trace: seq<Event>, result: SequenceResult)
    requires WellFormed(p)
    ensures FirstAbort(policy, respond, |p.steps|).None? ==>
              result == Completed && trace == FullTrace(p)
    ensures FirstAbort(policy, respond, |p.steps|).Some? ==>
              var k := FirstAbort(policy, respond, |p.steps|).value;
              result == Aborted(p.steps[k].tag, respond(k))
              && trace == Prefix(p, k) + [Send(p.steps[k].command)]
  {
    trace := [];
    var i := 0;
    while i < |p.steps|
      invariant 0 <= i <= |p.steps|
      invariant forall j :: 0 <= j < i ==> !Aborts(policy, respond(j))
      invariant i < |p.steps| ==> trace == Prefix(p, i)
      invariant i == |p.steps| ==> trace == FullTrace(p)
    {
      var step := p.steps[i];
      trace := trace + [Send(step.command)];
      var outcome := respond(i);
      if Aborts(policy, outcome) {
        FirstAbortAt(policy, respond, |p.steps|, i);
        return trace, Aborted(step.tag, outcome);
      }
      if i < |p.pauses| {
        trace := trace + [Sleep(p.pauses[i])];
      }
      i := i + 1;
    }
    result := Completed;
  }

  /** The prefixes of a three-step protocol, spelled out. */
  lemma ThreeStepPrefixes(p: Protocol)
    requires WellFormed(p) && |p.steps| == 3
    ensures Prefix(p, 0) == []
    ensures Prefix(p, 1) == [Send(p.steps[0].command), Sleep(p.pauses[0])]
    ensures Prefix(p, 2) == [ Send(p.steps[0].command), Sleep(p.pauses[0]),
                              Send(p.steps[1].command), Sleep(p.pauses[1]) ]
  {
  }

  // ---------------------------------------------------------------------------
  // The two concrete reset sequences
  // ---------------------------------------------------------------------------

  /** Go's `controlDevice`: codes `switch` and `manual_clean`, pauses 1s and 2s. */
  const GoReset: Protocol := Protocol(
    [ Step(Off, Command(Code("switch"), false)),
      Step(On, Command(Code("switch"), true)),
      Step(Clean, Command(Code("manual_clean"), true)) ],
    [1 * Second, 2 * Second])

  /** Python's `control_device`: data points 1 and 9, pauses 1s and 2s. */
  const PyReset: Protocol := Protocol(
    [ Step(Off, Command(Dp(1), false)),
      Step(On, Command(Dp(1), true)),
      Step(Clean, Command(Dp(9), true)) ],
    [1 * Second, 2 * Second])

  /** Everything Go's `controlDevice` sends and sleeps when no step fails. */
  const GoResetTrace: seq<Event> := [
    Send(Command(Code("switch"), false)), Sleep(Second),
    Send(Command(Code("switch"), true)), Sleep(2 * Second),
    Send(Command(Code("manual_clean"), true)) ]

  /** Everything Python's `control_device` sends and sleeps when `set_value` never raises. */
  const PyResetTrace: seq<Event> := [
    Send(Command(Dp(1), false)), Sleep(Second),
    Send(Command(Dp(1), true)), Sleep(2 * Second),
    Send(Command(Dp(9), true)) ]

  /**
    Go's `controlDevice`. All three sends accepted: OFF, 1s, ON, 2s, CLEAN and success.
    A failed send (transport error or `success == false`) at step k: an error tagged
    with that step and nothing after its send.
  */
  method ControlDeviceGo(respond: nat -> SendOutcome)
    returns (trace: seq<Event>, result: SequenceResult)
    ensures respond(0).Ok? && respond(1).Ok? && respond(2).Ok? ==>
              result == Completed && trace == GoResetTrace
    ensures !respond(0).Ok? ==>
              result == Aborted(Off, respond(0)) && trace == GoResetTrace[..1]
    ensures respond(0).Ok? && !respond(1).Ok? ==>
              result == Aborted(On, respond(1)) && trace == GoResetTrace[..3]
    ensures respond(0).Ok? && respond(1).Ok? && !respond(2).Ok? ==>
              result == Aborted(Clean, respond(2)) && trace == GoResetTrace
  {
    ThreeStepPrefixes(GoReset);
    trace, result := RunSequence(GoReset, FailFast, respond);
  }

  /**
    Python's `control_device`. Unless `set_value` raises, all three sends happen:
    data point 1 off, 1s, data point 1 on, 2s, data point 9 on. An exception at step k
    propagates and nothing after that send happens.
  */
  method ControlDevicePy(respond: nat -> SendOutcome)
    returns (trace: seq<Event>, result: SequenceResult)
    ensures !respond(0).TransportErr? && !respond(1).TransportErr? && !respond(2).TransportErr? ==>
              result == Completed && trace == PyResetTrace
    ensures respond(0).TransportErr? ==>
              result == Aborted(Off, respond(0)) && trace == PyResetTrace[..1]
    ensures !respond(0).TransportErr? && respond(1).TransportErr? ==>
              result == Aborted(On, respond(1)) && trace == PyResetTrace[..3]
    ensures !respond(0).TransportErr? && !respond(1).TransportErr? && respond(2).TransportErr? ==>
              result == Aborted(Clean, respond(2)) && trace == PyResetTrace
  {
    ThreeStepPrefixes(PyReset);
    trace, result := RunSequence(PyReset, ExceptionsOnly, respond);
  }
}

=== FILE: status_format.dfy ===
/**
  Python's `format_status`: the data points of a local status under readable names.
  A data point listed in `DPS_MAPPING` takes its mapped name, any other key `k`
  becomes "dps_k". Value formatting (`format_dps_value`) is a parameter.
*/
module StatusFormat {
  import opened Results
  import opened Telemetry
  import opened Text

  /** `DPS_MAPPING`: readable names of the appliance's data points. */
  const DpsMapping: map<string, string> := map[
    "1" := "reset",
    "2" := "mode",
    "3" := "unknown_3",
    "4" := "unknown_4",
    "5" := "cleaning_delay",
    "6" := "last_weight",
    "7" := "usage_today",
    "8" := "last_duration",
    "9" := "gravity_sensor_problem",
    "101" := "unknown_101",
    "102" := "led_color",
    "103" := "cleaning_count",
    "105" := "unknown_105",
    "106" := "dash_brightness",
    "107" := "light_brightness",
    "108" := "unknown_108",
    "109" := "control_source",
    "110" := "operation"
  ]

  /** The prefix given to data points without a readable name. */
  const FallbackPrefix: string := "dps_"

  /** `DPS_MAPPING.get(key, f"dps_{key}")`. */
  function FieldName(key: string): string {
    if key in DpsMapping then DpsMapping[key] else FallbackPrefix + key
  }

  /** No readable name starts with the fallback prefix. */
  lemma MappedNamesAreNotFallbacks()
    ensures forall k :: k in DpsMapping ==> !HasPrefix(DpsMapping[k], FallbackPrefix)
  {
    forall k | k in DpsMapping
      ensures !HasPrefix(DpsMapping[k], FallbackPrefix)
    {
      var name := DpsMapping[k];
      assert name[0] != 'd' || name[1] != 'p';
    }
  }

  /** Distinct data points get distinct names, so no value overwrites another. */
  lemma FieldNameInjective(k1: string, k2: string)
    requires FieldName(k1) == FieldName(k2)
    ensures k1 == k2
  {
    MappedNamesAreNotFallbacks();
    if k1 !in DpsMapping && k2 !in DpsMapping {
      assert k1 == FieldName(k1)[|FallbackPrefix|..];
      assert k2 == FieldName(k2)[|FallbackPrefix|..];
    }
  }

  /** All pairs of data points: equal names mean equal keys. */
  lemma FieldNamesInjective()
    ensures forall k1, k2 :: FieldName(k1) == FieldName(k2) ==> k1 == k2
  {
    forall k1, k2 | FieldName(k1) == FieldName(k2)
      ensures k1 == k2
    {
      FieldNameInjective(k1, k2);
    }
  }

  /** The names of a set of data points. */
  function FieldNames(keys: set<string>): set<string> {
    set k | k in keys :: FieldName(k)
  }

  /** Renaming keeps the number of data points. */
  lemma {:induction false} FieldNamesSize(keys: set<string>)
    ensures |FieldNames(keys)| == |keys|
    decreases |keys|
  {
    if keys != {} {
      var k :| k in keys;
      var rest := keys - {k};
      FieldNamesSize(rest);
      FieldNamesInjective();
      assert FieldNames(keys) == FieldNames(rest) + {FieldName(k)};
      assert FieldName(k) !in FieldNames(rest);
    }
  }

  /** The renamed, formatted data points: every key kept under its name, nothing else. */
  function RenameDataPoints(dps: map<string, Value>, formatValue: (string, Value) -> Value)
    : (formatted: map<string, Value>)
    ensures |formatted| == |dps|
    ensures forall k :: k in dps ==> FieldName(k) in formatted && formatted[FieldName(k)] == formatValue(k, dps[k])
    ensures forall f :: f in formatted ==> exists k :: k in dps && FieldName(k) == f
  {
    FieldNamesInjective();
    var formatted := map k | k in dps :: FieldName(k) := formatValue(k, dps[k]);
    assert formatted.Keys == FieldNames(dps.Keys);
    FieldNamesSize(dps.Keys);
    formatted
  }

  /**
    Python's `format_status`: `{}` for an empty status or one without `dps`; a `dps`
    that is not a dict makes `dps.items()` raise; otherwise every data point is kept,
    under its readable or fallback name, with its formatted value.
  */
  function FormatStatus(status: map<string, Value>, formatValue: (string, Value) -> Value)
    : (r: PyOutcome<map<string, Value>>)
    ensures "dps" !in status ==> r == Returns(map[])
    ensures r.Raises? <==> "dps" in status && !status["dps"].Map?
    ensures r.Raises? ==> r.exception == AttributeError
    ensures r.Returns? && "dps" in status ==>
              var dps := status["dps"].fields;
              && |r.value| == |dps|
              && (forall k :: k in dps ==> FieldName(k) in r.value && r.value[FieldName(k)] == formatValue(k, dps[k]))
  {
    if |status| == 0 || "dps" !in status then Returns(map[])
    else
      match status["dps"]
      case Map(dps) => Returns(RenameDataPoints(dps, formatValue))
      case _ => Raises(AttributeError)
  }
}

=== FILE: telemetry.dfy ===
/**
  Loosely typed telemetry as the cloud API (decoded JSON) and the local protocol
  deliver it. The dynamic type of every value is explicit, so that "present but of
  the wrong type" is a case the model has to handle rather than a silent default.
*/
module Telemetry {
  import opened Results

  /** A decoded JSON value; `Null` is JSON `null`. */
  datatype Value =
    | Bool(b: bool)
    | Num(n: real)
    | Str(s: string)
    | Map(fields: map<string, Value>)
    | List(items: seq<Value>)
    | Null

  /** Type-checked extraction of a boolean field (Go's `m[key].(bool)`). */
  function BoolField(m: map<string, Value>, key: string): (r: Option<bool>)
  {
    if key in m && m[key].Bool? then Some(m[key].b) else None
  }

  /** Type-checked extraction of a string field (Go's `m[key].(string)`). */
  function StrField(m: map<string, Value>, key: string): (r: Option<string>)
  {
    if key in m && m[key].Str? then Some(m[key].s) else None
  }

  /** Type-checked extraction of a list field (Go's `m[key].([]interface{})`). */
  function ListField(m: map<string, Value>, key: string): (r: Option<seq<Value>>)
  {
    if key in m && m[key].List? then Some(m[key].items) else None
  }
}

=== FILE: text.dfy ===
/**
  String helpers with the exact semantics of the two runtimes the agent exists in:
  Go's `strings.TrimSpace` (whitespace = `unicode.IsSpace`) and Python's `str.strip()`
  (whitespace = `str.isspace`). The two agree except that Python also treats the
  information separators U+001C..U+001F as whitespace.
*/
module Text {
  import opened Results

  /** Which implementation's library semantics apply. */
  datatype Lang = Go | Py

  /** Whitespace as `unicode.IsSpace` (Go) or `str.isspace` (Python) defines it. */
  predicate IsSpace(lang: Lang, c: char) {
    var n := c as int;
    || (9 <= n <= 13) || n == 0x20 || n == 0x85 || n == 0xA0
    || n == 0x1680 || (0x2000 <= n <= 0x200A)
    || n == 0x2028 || n == 0x2029 || n == 0x202F || n == 0x205F || n == 0x3000
    || (lang == Py && 0x1C <= n <= 0x1F)
  }

  /** True when no character at either end of `s` is whitespace. */
  predicate IsTrimmed(lang: Lang, s: string) {
    |s| == 0 || (!IsSpace(lang, s[0]) && !IsSpace(lang, s[|s| - 1]))
  }

  /** Drops leading whitespace: the result is the suffix starting at the first non-space. */
  function TrimLeft(lang: Lang, s: string): (t: string)
    ensures |t| <= |s| && t == s[|s| - |t|..]
    ensures forall i :: 0 <= i < |s| - |t| ==> IsSpace(lang, s[i])
    ensures |t| > 0 ==> !IsSpace(lang, t[0])
    decreases |s|
  {
    if |s| > 0 && IsSpace(lang, s[0]) then
      var t := TrimLeft(lang, s[1..]);
      assert s[1..][|s| - 1 - |t|..] == s[|s| - |t|..];
      assert forall i :: 1 <= i < |s| - |t| ==> s[i] == s[1..][i - 1];
      t
    else s
  }

  /** Drops trailing whitespace: the result is the prefix ending at the last non-space. */
  function TrimRight(lang: Lang, s: string): (t: string)
    ensures |t| <= |s| && t == s[..|t|]
    ensures forall i :: |t| <= i < |s| ==> IsSpace(lang, s[i])
    ensures |t| > 0 ==> !IsSpace(lang, t[|t| - 1])
    decreases |s|
  {
    if |s| > 0 && IsSpace(lang, s[|s| - 1]) then
      var t := TrimRight(lang, s[..|s| - 1]);
      assert s[..|s| - 1][..|t|] == s[..|t|];
      assert forall i :: |t| <= i < |s| - 1 ==> s[i] == s[..|s| - 1][i];
      t
    else s
  }

  /** `t` is `s` with `a` characters of whitespace cut from the front and only whitespace from the back. */
  ghost predicate CutsWhitespace(lang: Lang, s: string, a: int, t: string) {
    && 0 <= a <= |s| - |t|
    && t == s[a..a + |t|]
    && (forall i :: 0 <= i < a ==> IsSpace(lang, s[i]))
    && (forall i :: a + |t| <= i < |s| ==> IsSpace(lang, s[i]))
  }

  /** `strings.TrimSpace` / `str.strip()`: a trimmed infix of `s` with only whitespace cut off. */
  function Trim(lang: Lang, s: string): (t: string)
    ensures IsTrimmed(lang, t)
    ensures exists a :: CutsWhitespace(lang, s, a, t)
  {
    var l := TrimLeft(lang, s);
    var t := TrimRight(lang, l);
    var a := |s| - |l|;
    assert CutsWhitespace(lang, s, a, t);
    assert |t| > 0 ==> !IsSpace(lang, t[0]) by {
      if |t| > 0 { assert t[0] == l[0]; }
    }
    t
  }

  /** Trimming a string that has no whitespace at its ends returns it unchanged. */
  lemma TrimOfTrimmed(lang: Lang, s: string)
    requires IsTrimmed(lang, s)
    ensures Trim(lang, s) == s
  {
    TrimLeftKeeps(lang, s);
    TrimRightKeeps(lang, s);
  }

  /** Nothing is cut from the front of a string that does not start with whitespace. */
  lemma TrimLeftKeeps(lang: Lang, s: string)
    requires |s| == 0 || !IsSpace(lang, s[0])
    ensures TrimLeft(lang, s) == s
  {
  }

  /** Nothing is cut from the back of a string that does not end with whitespace. */
  lemma TrimRightKeeps(lang: Lang, s: string)
    requires |s| == 0 || !IsSpace(lang, s[|s| - 1])
    ensures TrimRight(lang, s) == s
  {
  }

  /** No character of `s` is one of the separators only Python counts as whitespace. */
  predicate NoPySeparators(s: string) {
    forall i :: 0 <= i < |s| ==> !(0x1C <= s[i] as int <= 0x1F)
  }

  /** Every slice of a string without the separators is without them too. */
  lemma NoPySeparatorsSlice(s: string, a: int, b: int)
    requires NoPySeparators(s) && 0 <= a <= b <= |s|
    ensures NoPySeparators(s[a..b])
  {
    forall i | 0 <= i < b - a ensures !(0x1C <= s[a..b][i] as int <= 0x1F) {
      assert s[a..b][i] == s[a + i];
    }
  }

  /** Without the separators U+001C..U+001F, `strings.TrimSpace` and `str.strip()` agree. */
  lemma TrimAgrees(s: string)
    requires NoPySeparators(s)
    ensures Trim(Go, s) == Trim(Py, s)
  {
    TrimLeftAgrees(s);
    var l := TrimLeft(Go, s);
    NoPySeparatorsSlice(s, |s| - |l|, |s|);
    TrimRightAgrees(l);
    assert Trim(Go, s) == TrimRight(Go, l);
    assert Trim(Py, s) == TrimRight(Py, l);
  }

  lemma {:induction false} TrimLeftAgrees(s: string)
    requires NoPySeparators(s)
    ensures TrimLeft(Go, s) == TrimLeft(Py, s)
    decreases |s|
  {
    if |s| > 0 {
      assert IsSpace(Go, s[0]) == IsSpace(Py, s[0]);
      NoPySeparatorsSlice(s, 1, |s|);
      TrimLeftAgrees(s[1..]);
    }
  }

  lemma {:induction false} TrimRightAgrees(s: string)
    requires NoPySeparators(s)
    ensures TrimRight(Go, s) == TrimRight(Py, s)
    decreases |s|
  {
    if |s| > 0 {
      assert IsSpace(Go, s[|s| - 1]) == IsSpace(Py, s[|s| - 1]);
      NoPySeparatorsSlice(s, 0, |s| - 1);
      TrimRightAgrees(s[..|s| - 1]);
    }
  }

  /** `strings.HasPrefix` / `str.startswith`. */
  predicate HasPrefix(s: string, p: string) {
    |p| <= |s| && s[..|p|] == p
  }

  /** The index of the first occurrence of `c` in `s`, if any. */
  function IndexOf(s: string, c: char): (r: Option<nat>)
    ensures r.None? <==> c !in s
    ensures r.Some? ==> r.value < |s| && s[r.value] == c && c !in s[..r.value]
  {
    if |s| == 0 then None
    else if s[0] == c then Some(0)
    else
      var rest := IndexOf(s[1..], c);
      if rest.None? then None
      else
        assert s[..rest.value + 1] == [s[0]] + s[1..][..rest.value];
        Some(rest.value + 1)
  }

  /** An ASCII decimal digit. */
  predicate IsDigit(c: char) {
    '0' <= c <= '9'
  }

  /** The value of an ASCII decimal digit. */
  function DigitValue(c: char): (d: nat)
    requires IsDigit(c)
    ensures d < 10
  {
    c as int - '0' as int
  }

  /** The ASCII digit of a value below ten. */
  function DigitChar(d: nat): (c: char)
    requires d < 10
    ensures IsDigit(c) && DigitValue(c) == d
  {
    ('0' as int + d) as char
  }

  /** The shortest decimal representation of `n`, as `str(n)` or `%d` would print it. */
  function DecimalString(n: nat): (s: string)
    ensures |s| > 0
    ensures forall i :: 0 <= i < |s| ==> IsDigit(s[i])
    ensures |s| > 1 ==> s[0] != '0'
  {
    if n < 10 then [DigitChar(n)] else DecimalString(n / 10) + [DigitChar(n % 10)]
  }
}
